=== FILE: README.md ===
# static-site-generator: a Dafny model of the page builders and the build loop

This project models the core of a small Go static-site generator.

- **The permissive page builder** `ParseMarkdown` (internal/parser/parser.go). It reads a Markdown file with optional `---`-delimited YAML front matter. It checks the date as `YYYY-MM-DD`, defaults the layout to `page`, derives the slug from the path relative to the content root, and puts the page at `filepath.Join(slug, "index.html")`, which is `<slug>/index.html` for every clean slug other than `.` and `/`.
- **The strict page builder** `ParseMarkdownWithFrontMatter` (internal/parser/markdown.go). It requires front matter. Its slug is the file's base name without `.md`. Its output path is the source path with the first `content` replaced by `output` and `.md` replaced by `.html`.
- **`Build`** (internal/builder/builder.go), modelled as a fold over the entries of `filepath.WalkDir("content", …)`:
  - directories, other files and walk errors are filtered;
  - the first error aborts the build;
  - every page read, directory creation, file creation and render is recorded in a log of operations; template parsing and directory listing are parameters, not logged;
  - the collected pages are sorted stably by date, newest first;
  - a blog index is written at `output/blog/index.html`.

The modules follow the program's structure:

| module | file | what it holds |
|---|---|---|
| `Wrappers` | wrappers.dfy | `Option` and `Result` |
| `Strings` | strings.dfy | the parts of Go's `strings` package the builders use, plus Go's string order |
| `Paths` | paths.dfy | `path/filepath` for `/` as the separator: lexical `Clean`, `Join`, `Base`, `Ext`, `Dir`, `Rel` |
| `Dates` | dates.dfy | `time.Parse("2006-01-02", …)`, the full-date of section 5.6 of RFC 3339 with the day limits of section 5.7 |
| `Models` | models.dfy | the `Page` record of internal/models/page.go |
| `FrontMatterSplit` | front_matter.dfy | the split `strings.SplitN(content, "---", 3)` that both builders share |
| `Parser` | parser.dfy | `ParseMarkdown` and its `frontMatter` record |
| `Markdown` | markdown.dfy | `ParseMarkdownWithFrontMatter` and its `Page` record |
| `ParserAgreement` | agreement.dfy | how the two builders relate on the same document |
| `StableSort` | stable_sort.dfy | `sort.SliceStable`, descending on a string key |
| `Builder` | builder.dfy | `Build` |

Some libraries stay outside the model: YAML decoding, Markdown rendering, template parsing and execution, and the filesystem. Each is a field of a `Library` or `Env` value (a function, or for template parsing an optional error), so every statement holds whatever those libraries do.

Facts about the code that shape the model:

- `Build` calls the strict builder (internal/builder/builder.go:41), not `ParseMarkdown`. A page is therefore written at its rewritten source path (internal/parser/markdown.go:53), so `content/a/b.md` goes to `output/a/b.html`, not to `<slug>/index.html`.
- The index path is fixed at internal/builder/builder.go:78 as `output/blog/index.html`.
- cmd/static-site-generator/main.go:21 calls `Build` with three arguments, but internal/builder/builder.go:23 declares `Build` with none. The model follows builder.go:
  - it reads the fixed names `content`, `templates/base.html` and `templates/blog_index.html` (lines 24, 31 and 73);
  - every page is rendered with the one base template, and no page's `Template` field is consulted.
- A malformed front-matter block is reported without the path by both builders (internal/parser/markdown.go:36, internal/parser/parser.go:46). Only `Build` adds the path when it wraps the error (internal/builder/builder.go:43).
- The sort comparator at internal/builder/builder.go:69 reads a `Time` field. The `Page` type that builder.go collects (internal/parser/markdown.go:16-24) has no such field, so builder.go does not compile as written. The model uses the page's `Date` text as the sort key, compared the way Go compares strings.
  - `Builder.IndexIsNewestFirst` shows that this is calendar order for valid `YYYY-MM-DD` dates.
  - `Builder.UndatedPagesLast` shows that pages without a date sort after every dated page.

## Model

| member | source | states |
|---|---|---|
| Strings.Index | internal/parser/parser.go:37 | the position of the first occurrence of a separator: it occurs there and nowhere before, and there is none exactly when the text does not contain it |
| Strings.SplitN | internal/parser/parser.go:37 | `strings.SplitN` with a non-empty separator: no part for n = 0; otherwise between 1 and n parts that join back to the input with the separator, no part but the last contains the separator, and the last has none when fewer than n parts come out; every cut is at the first occurrence of the separator in the text that remains, so the overlapping `----` splits after its first three characters |
| Strings.TrimSuffix | internal/parser/markdown.go:48 | `strings.TrimSuffix`: with the suffix present, the result followed by the suffix is the input; otherwise the input is unchanged |
| Strings.TrimSpace | internal/parser/parser.go:44 | the result is no longer than the input and neither starts nor ends with Unicode white space |
| Strings.TrimSpaceFrame | internal/parser/parser.go:44 | the trimmed text is a contiguous slice of the input, and everything cut off on either side is white space |
| Strings.TrimSpaceIdempotent | internal/parser/parser.go:44 | trimming twice is trimming once |
| Strings.ReplaceFirst | internal/parser/markdown.go:53 | `strings.Replace(s, old, new, 1)` leaves text without an occurrence unchanged |
| Strings.ReplaceFirstAt | internal/parser/markdown.go:53 | only the first occurrence is replaced: the text before it and every later occurrence are kept |
| Strings.LexLessIrreflexive | internal/builder/builder.go:68-70 | Go's string `<` never holds between a string and itself |
| Strings.LexLessTransitive | internal/builder/builder.go:68-70 | Go's string `<` is transitive |
| Strings.LexLessTotal | internal/builder/builder.go:68-70 | of two different strings, one is below the other |
| Strings.LexNotLessTransitive | internal/builder/builder.go:68-70 | "not below" is transitive, so the descending comparator is a total preorder as `sort.SliceStable` needs |
| Paths.Segments | internal/parser/parser.go:81 | splitting at `/` gives at least one element; the elements joined with `/` give the path back and contain no `/` |
| Paths.SegmentsOfJoin | internal/parser/parser.go:81 | splitting slash-free elements joined with `/` gives the elements back |
| Paths.Clean | internal/parser/parser.go:81 | `filepath.Clean` never gives the empty path and keeps a rooted path rooted; its results on the builders' paths are stated by `Paths.CleanPlain`, `Paths.CleanTrailingSlash` and `Paths.JoinPlain` |
| Paths.Join | internal/parser/parser.go:81 | `filepath.Join` of two elements is empty exactly when both are |
| Paths.CleanPlain | internal/parser/parser.go:81 | `filepath.Clean` leaves a path of plain names unchanged |
| Paths.JoinEndsWithName | internal/parser/parser.go:81 | `filepath.Join(slug, "index.html")` is `index.html` or ends in `/index.html`, whatever the slug |
| Paths.JoinClean | internal/parser/parser.go:81 | joining a name onto any clean directory other than `.` and `/` is that directory, a separator and the name |
| Paths.JoinPlain | internal/parser/parser.go:81 | joining a name onto a plain directory is concatenation with one separator |
| Paths.Base | internal/parser/markdown.go:50 | `filepath.Base` is never empty: `.` for the empty path, `/` for a path of separators, otherwise a slash-free suffix of the path without its trailing separators that is a whole element |
| Paths.BaseOfName | internal/parser/markdown.go:50 | the base of a directory prefix followed by a name is the name |
| Paths.Ext | internal/parser/parser.go:76 | `filepath.Ext` is a suffix of the path that starts with its only `.` and holds no `/`; it is empty only when the final element has no `.` |
| Paths.ExtOfMarkdownName | internal/parser/parser.go:76 | the extension of a `.md` file is `.md` |
| Paths.DirPrefix | internal/builder/builder.go:50 | everything up to and including the last separator: a prefix ending in `/` (or empty), with no `/` after it |
| Paths.Dir | internal/builder/builder.go:50 | `filepath.Dir` is never empty, and is `.` for a path without a separator |
| Paths.DirPlain | internal/builder/builder.go:50 | `filepath.Dir` of a plain directory followed by a name is that directory |
| Paths.Rel | internal/parser/parser.go:71 | for a target inside a clean base directory, `filepath.Rel` is the target with the base and one separator removed |
| Dates.DaysIn | internal/parser/parser.go:56 | months have 28, 29, 30 or 31 days: 29 exactly for February of a leap year, 28 for February otherwise, 30 for April, June, September and November |
| Dates.ParseDate | internal/parser/parser.go:56 | `time.Parse("2006-01-02", s)` succeeds exactly on a full-date with a day that exists in its month, and yields that day |
| Dates.ParseFormat | internal/parser/parser.go:56 | formatting a valid day and parsing it back gives the day |
| Dates.FormatParse | internal/parser/parser.go:56 | parsing a valid date and formatting it back gives the text |
| Dates.LexLessDigits | internal/builder/builder.go:68-70 | on digit strings of one length, Go's string order is numeric order and string equality is numeric equality |
| Dates.TextOrderIsDateOrder | internal/builder/builder.go:68-70 | on valid dates, one text is below another exactly when its day is earlier |
| Dates.LeapDayExample | internal/parser/parser.go:56-59 | `2023-02-29` fails with "day out of range"; `2024-02-29` parses |
| FrontMatterSplit.SplitParts | internal/parser/parser.go:37 | one to three parts that join back to the content with `---`; no part but the last holds `---` |
| FrontMatterSplit.PrefixedSplit | internal/parser/parser.go:36-38 | for content starting with `---`: three parts exactly when another `---` follows; the first part is empty; the metadata runs up to the first later `---`; the body is everything after it; the content is `---` + metadata + `---` + body |
| Parser.DateMessageNamesPath | internal/parser/parser.go:58 | a date error's message contains the file's path |
| Parser.SplitFrontMatter | internal/parser/parser.go:36-51 | without a leading `---`, empty metadata and the whole content as body; with one, "invalid front matter format" exactly when no second `---` follows; otherwise the decoded middle part and the trimmed last part, or the YAML error wrapped |
| Parser.ResolveDate | internal/parser/parser.go:54-60 | an empty date is the zero time; a non-empty one succeeds exactly when it is a valid full-date and yields that day; an error names the path |
| Parser.ResolveLayout | internal/parser/parser.go:63-66 | the layout is never empty: the explicit one, or `page` |
| Parser.ResolveSlug | internal/parser/parser.go:69-78 | an explicit slug is kept; an error only comes from deriving one; for a clean path inside a clean root, the path is root + `/` + slug + the extension that was removed |
| Parser.OutputPathFor | internal/parser/parser.go:81 | the output path is `index.html` or ends in `/index.html`, and is `<slug>/index.html` for every clean slug other than `.` and `/` (relative, rooted or starting with `..`) |
| Parser.ParseMarkdown | internal/parser/parser.go:26-94 | a read error is wrapped as such; a built page has a non-empty layout, an output path ending in `index.html`, and HTML rendered from its body |
| Parser.NoFrontMatterPage | internal/parser/parser.go:48-51 | a document without a leading `---` never fails before slug derivation; its page has the whole untrimmed content as body, no title or tags, layout `page`, and the zero date |
| Parser.HalfFormedBlockRejected | internal/parser/parser.go:36-47 | a document starting with `---` is rejected as malformed exactly when no second `---` follows |
| Parser.PageBuiltUnderRoot | internal/parser/parser.go:26-94 | for a clean `<root>/<stem>.md` under a clean root, a page is built exactly when the front-matter stage succeeds and the date is empty or a valid `YYYY-MM-DD`; a document without a front-matter block is always built |
| Parser.FrontMatterPage | internal/parser/parser.go:36-44 | with a block, title and tags are those decoded from the text between the first two delimiters, and the body is the rest trimmed |
| Parser.PageDate | internal/parser/parser.go:54-60 | a non-empty invalid date fails naming the path; a built page has the zero time for an empty date and the named day otherwise |
| Parser.PageLayoutAndSlug | internal/parser/parser.go:62-81 | explicit layout and slug are kept; otherwise `page`, and the relative path without its extension; the output path is `<slug>/index.html` for every clean slug other than `.` and `/` |
| Parser.MarkdownFileSlug | internal/parser/parser.go:68-81 | `<root>/<stem>.md` without an explicit slug gets slug `<stem>` and, for a plain stem, output path `<stem>/index.html` |
| Markdown.OutputPathOf | internal/parser/markdown.go:48-53 | the output path ends in `.html`; without a `content` in the path it is the path without `.md` plus `.html` |
| Markdown.OutputPathFirstOccurrence | internal/parser/markdown.go:53 | only the first `content` of the path becomes `output` |
| Markdown.OutputPathUnderContent | internal/parser/markdown.go:48-53 | `content/<rest>.md` gets the output path `output/<rest>.html` |
| Markdown.SlugOf | internal/parser/markdown.go:47-51 | an explicit slug is kept; otherwise the slug is `filepath.Base` of the path without `.md`: `.` for an empty path, `/` for a path of separators only, and otherwise the whole final element of that path with trailing separators dropped, which is slash-free |
| Markdown.ParseMarkdownWithFrontMatter | internal/parser/markdown.go:26-61 | "missing front matter" without a leading `---`; "invalid front matter format" exactly when the split gives fewer than three parts; with three parts the page is built exactly when the metadata decodes, and a decoding failure is returned as the YAML error; a page copies the decoded values, renders the untrimmed body, takes its slug from `SlugOf` and its path from `OutputPathOf` |
| Markdown.HalfFormedBlockRejected | internal/parser/markdown.go:34-37 | a document starting with `---` is rejected as malformed exactly when no second `---` follows |
| Markdown.DerivedSlugIsFileName | internal/parser/markdown.go:47-51 | a file `content/<dirs><name>.md` without an explicit slug gets slug `<name>` |
| ParserAgreement.SameHalfFormedRejections | internal/parser/parser.go:36-47 | on content starting with `---`, the permissive and the strict builder reject exactly the same documents as malformed |
| ParserAgreement.StrictRefusesPlainDocuments | internal/parser/markdown.go:30-32 | a document without a leading `---` is refused by the strict builder but passes the permissive builder's front-matter stage with empty metadata and the whole content as body |
| ParserAgreement.SameBody | internal/parser/parser.go:44 | when both accept a document, the permissive body is the trimmed text that the strict builder renders untrimmed |
| StableSort.Insert | internal/builder/builder.go:68-70 | insertion adds exactly one element and keeps the rest |
| StableSort.InsertSorted | internal/builder/builder.go:68-70 | inserting into a descending sequence keeps it descending |
| StableSort.InsertGroup | internal/builder/builder.go:68-70 | the inserted element goes in front of its equal-key group, and every other group is unchanged |
| StableSort.SortDescending | internal/builder/builder.go:68-70 | the result is a permutation of the input, non-increasing by key, with equal keys in input order |
| StableSort.StableSortUnique | internal/builder/builder.go:68-70 | two descending sequences with the same equal-key groups are equal, so a stable sort has exactly one result |
| StableSort.SortIsTheStableSort | internal/builder/builder.go:68-70 | any stable descending sort of the input is what `SortDescending` returns |
| Builder.IndexDirectory | internal/builder/builder.go:78-79 | the directory created for the index is `output/blog` |
| Builder.ParseMessageNamesPath | internal/builder/builder.go:43 | a parse failure's message contains the path of the file |
| Builder.WritePage | internal/builder/builder.go:49-60 | writing a page succeeds exactly when creating its directory, creating its file and running the template all succeed; the effects are those three, cut off after the first failure: a failing `MkdirAll` leaves one effect and returns "mkdir error", a failing `Create` leaves two and returns "create output error", a failing template run returns its error unwrapped |
| Builder.Visit | internal/builder/builder.go:31-61 | a walk error is returned unchanged with no effect; a skipped entry does nothing; a read or parse failure has the read as its only effect and returns "read file error" or "parse markdown error in <path>"; otherwise the effects are the read followed by the page write's, and the outcome is the page write's error or the page; a success reads, yields the parsed page and writes it at its path; it succeeds exactly when no step for the entry fails |
| Builder.Selected | internal/builder/builder.go:32 | the callback's filter: no walk error, not a directory, a path ending in `.md`; `Builder.Visit` reads exactly these entries |
| Builder.WalkDir | internal/builder/builder.go:31-61 | the walk succeeds exactly when every callback does; a failed walk returns the error of a failing callback before which every callback succeeded, that is the first failure |
| Builder.WalkAppend | internal/builder/builder.go:31-65 | walking two runs of entries is walking the first and, only if it raised no error, continuing with the second |
| Builder.WalkErrorStops | internal/builder/builder.go:32-34 | a walk error is returned unchanged, and nothing after it has an effect |
| Builder.SkippedEntry | internal/builder/builder.go:32-34 | directories and non-`.md` paths change neither the pages nor the effects |
| Builder.ReadOrParseFailureAborts | internal/builder/builder.go:36-44 | a read or parse failure ends the walk with that error; its only effect is the read, so no directory or file is created for it and no later entry is read |
| Builder.VisitSucceeds | internal/builder/builder.go:36-60 | a successful callback yields the page found in its entry, and its effects are that file's read and write |
| Builder.WalkOutcome | internal/builder/builder.go:31-65 | the walk succeeds exactly when every callback does; then its pages are the parsed `.md` files in walk order, and its effects are one read and one write per page |
| Builder.OneWritePerPage | internal/builder/builder.go:46-60 | in a walk without error, each collected page is created and rendered exactly once, at its own path, in walk order |
| Builder.WriteIndex | internal/builder/builder.go:78-89 | writing the index succeeds exactly when its directory, file and template run all succeed; the effects stop at the first failure (one after a failing `MkdirAll`, two after a failing `Create`), and the failing step's error is returned unwrapped |
| Builder.Build | internal/builder/builder.go:23-90 | a base template failure has no effect; a walk error is returned after the walk's effects; an index template failure after a clean walk is returned wrapped, after the walk's effects; otherwise the effects and the error are the walk's followed by the index write's with the sorted pages; the build succeeds exactly when both templates parse, the walk succeeds and the index write succeeds; success means the walk succeeded and the effects are the walk's followed by the index write with the sorted pages |
| Builder.FailedWalkRendersNoIndex | internal/builder/builder.go:63-65 | the walk never renders the index, so a build whose walk fails renders none |
| Builder.IndexWrittenOnceAfterCleanWalk | internal/builder/builder.go:63-89 | a build without error had no failing callback, and rendered the index exactly once, as its last effect, with all collected pages as a stable descending sort and a permutation |
| Builder.NewestFirst | internal/builder/builder.go:68-70 | in a list sorted by date text, valid dates run from newest to oldest |
| Builder.IndexIsNewestFirst | internal/builder/builder.go:67-70 | the index order of pages with valid dates is newest first |
| Builder.UndatedPagesLast | internal/builder/builder.go:68-70 | pages without a date come after every dated page |

## Left out

- YAML decoding, Markdown-to-HTML rendering and template execution are function-typed parameters; template parsing is an optional-error parameter. The model fixes their call sites, arguments and error handling, not their output.
- Page reads, directory creations, file creations and renders are a log of attempted operations. The reads of the two template files and `WalkDir`'s directory listings are not logged. Whether each logged operation fails is a function of its path, or of the page, alone. Real filesystem state, permissions, and the contents of written files are not modelled.
- Builder.Build: a template execution that fails part-way may leave a partly written file in Go. The model records only that the render was attempted.
- Builder.WalkDir: the entries are given in walk order. `WalkDir`'s lexical directory ordering, its reading of directories and `SkipDir` are not modelled. The callback never returns `SkipDir`.
- Strings.SplitN: only a non-empty separator is modelled. The source always splits on `---`.
- Paths.Rel: only the case of a clean target inside a clean base directory is computed. Every other case of Go's algorithm (`..` steps, rooted against relative paths, cleaning first) is a parameter.
- Paths.Clean: the contract states only that the result is non-empty and that a rooted path stays rooted. Its behaviour is stated by `Paths.CleanPlain`, `Paths.JoinEndsWithName` and `Paths.JoinPlain`, for the paths the builders produce.
- Dates.ParseDate: errors carry the kind Go reports (cannot parse, month out of range, extra text, day out of range), not Go's full message text quoting the input and layout. Years are limited to four digits, as the layout demands.
- Parser.ParseMarkdown: wrapped YAML and filesystem errors carry the library's message as an opaque string.
- The `Page` struct at internal/builder/builder.go:17-21 is unused by the source and is not modelled.
- cmd/static-site-generator/main.go, the command-line entry point, is not part of this model.
- File contents are modelled as Unicode text, the result of `string(data)` at internal/parser/parser.go:32 and internal/parser/markdown.go:29. Bytes that are not valid UTF-8 cannot be represented, and Go compares and splits bytes, not characters. For valid text the two agree.
- `filepath.ToSlash` is the identity, because the model assumes `/` as the separator.

=== FILE: agreement.dfy ===
/**
 How the two page builders of internal/parser relate on the same document:
 they share one split, so they refuse the same half-formed blocks; the strict
 one refuses what the permissive one treats as a plain body; and on success
 they read the same body, trimmed in one and untouched in the other.
 */
module ParserAgreement {
  import opened Wrappers
  import opened Strings
  import opened FrontMatterSplit
  import Parser
  import Markdown

  /** On content that opens with the delimiter, both builders refuse exactly the same inputs as malformed. */
  lemma SameHalfFormedRejections(content: string, path: string, inputDir: string,
                                 pl: Parser.Library, ml: Markdown.Library)
    requires StartsWithDelimiter(content)
    ensures Parser.ParseMarkdown(path, inputDir, Ok(content), pl) == Err(Parser.InvalidFrontMatterFormat)
            <==> Markdown.ParseMarkdownWithFrontMatter(content, path, ml) == Err(Markdown.InvalidFrontMatterFormat)
  {
    Parser.HalfFormedBlockRejected(path, inputDir, content, pl);
    Markdown.HalfFormedBlockRejected(content, path, ml);
  }

  /**
   Without a leading delimiter the strict builder always refuses, while the
   permissive one gets past the front-matter stage with the whole content as body.
   */
  lemma StrictRefusesPlainDocuments(content: string, path: string, pl: Parser.Library, ml: Markdown.Library)
    requires !StartsWithDelimiter(content)
    ensures Markdown.ParseMarkdownWithFrontMatter(content, path, ml) == Err(Markdown.MissingFrontMatter)
    ensures Parser.SplitFrontMatter(content, pl.decodeYaml) == Ok((Parser.EmptyFrontMatter, content))
  {
  }

  /**
   When both builders accept a document, the permissive page's body is the
   trimmed text that the strict builder renders untrimmed.
   */
  lemma SameBody(content: string, path: string, inputDir: string, pl: Parser.Library, ml: Markdown.Library)
    requires StartsWithDelimiter(content)
    requires Parser.ParseMarkdown(path, inputDir, Ok(content), pl).Ok?
    requires Markdown.ParseMarkdownWithFrontMatter(content, path, ml).Ok?
    ensures |SplitParts(content)| == 3
    ensures Parser.ParseMarkdown(path, inputDir, Ok(content), pl).value.content == TrimSpace(SplitParts(content)[2])
    ensures Markdown.ParseMarkdownWithFrontMatter(content, path, ml).value.content == ml.toHtml(SplitParts(content)[2])
  {
    Parser.FrontMatterPage(path, inputDir, content, pl);
  }
}

=== FILE: builder.dfy ===
/**
 `Build` of internal/builder/builder.go as a fold over the entries that
 `filepath.WalkDir("content", …)` hands to its callback. Every page read,
 directory creation, file creation and template render is an entry in a log
 of operations, and whether it fails is decided by functions of the
 environment. Template parsing and the directory listing are parameters and
 are not logged: the parse outcomes are the optional errors
 `pageTemplateErr` and `indexTemplateErr`, and the listing is the given
 sequence of entries.
 */
module Builder {
  import opened Wrappers
  import opened Strings
  import Paths
  import Dates
  import Markdown
  import StableSort

  const IndexPath: string := "output/blog/index.html"

  const BlogDir: string := "output/blog"

  /** Helper: `output/blog` is two names joined by a separator. */
  lemma BlogDirIsPlain()
    ensures BlogDir == "output" + "/" + "blog" && Paths.IsPlainPath(BlogDir)
  {
    assert Paths.IsName("output") && Paths.IsName("blog");
    Paths.PlainPair("output", "blog");
  }

  /** Helper: the index file name sits directly in `output/blog`. */
  lemma IndexPathInBlogDir()
    ensures IndexPath == BlogDir + "/" + "index.html" && Paths.IsName("index.html")
  {
  }

  /** The index directory `MkdirAll` is asked for is `output/blog`. */
  lemma IndexDirectory()
    ensures Paths.Dir(IndexPath) == BlogDir
  {
    BlogDirIsPlain();
    IndexPathInBlogDir();
    Paths.DirPlain(BlogDir, "index.html");
  }

  /** One callback of the walk: the path, whether it is a directory, the walk's own error, and what reading the file gives. */
  datatype Entry = Entry(path: string, isDir: bool, walkErr: Option<string>, data: Result<string, string>)

  /** What a template is executed with: one page, or the sorted list for the blog index. */
  datatype View = PageView(page: Markdown.Page) | IndexView(pages: seq<Markdown.Page>)

  /** The effects a build attempts, in order; a failing one is the last of its entry. */
  datatype Op =
    | ReadFile(path: string)
    | MakeDirs(path: string)
    | CreateFile(path: string)
    | Render(path: string, view: View)

  /**
   The outside world: the Markdown library, whether each template parses
   (`Some` holds the error), and whether each filesystem call and template
   execution fails.
   */
  datatype Env = Env(
    lib: Markdown.Library,
    pageTemplateErr: Option<string>,
    indexTemplateErr: Option<string>,
    mkdirAll: string -> Option<string>,
    create: string -> Option<string>,
    executePage: Markdown.Page -> Option<string>,
    executeIndex: seq<Markdown.Page> -> Option<string>)

  /** The errors `Build` returns; `Unwrapped` is an error passed on without added context. */
  datatype BuildError =
    | TemplateParse(cause: string)
    | ReadFailed(cause: string)
    | ParseFailed(path: string, reason: Markdown.ParseError)
    | MkdirFailed(cause: string)
    | CreateFailed(cause: string)
    | IndexTemplateParse(cause: string)
    | Unwrapped(cause: string)

  function ParseErrorText(e: Markdown.ParseError): string {
    match e
    case MissingFrontMatter => "missing front matter"
    case InvalidFrontMatterFormat => "invalid front matter format"
    case YamlError(cause) => cause
  }

  /** The text of the error, as `fmt.Errorf` builds it. */
  function Message(e: BuildError): string {
    match e
    case TemplateParse(cause) => "template parse error: " + cause
    case ReadFailed(cause) => "read file error: " + cause
    case ParseFailed(path, reason) => "parse markdown error in " + path + ": " + ParseErrorText(reason)
    case MkdirFailed(cause) => "mkdir error: " + cause
    case CreateFailed(cause) => "create output error: " + cause
    case IndexTemplateParse(cause) => "error parsing blog index template: " + cause
    case Unwrapped(cause) => cause
  }

  /** A parse failure's message names the file that failed. */
  lemma ParseMessageNamesPath(path: string, reason: Markdown.ParseError)
    ensures Contains(Message(ParseFailed(path, reason)), path)
  {
    var m := Message(ParseFailed(path, reason));
    var lead := "parse markdown error in ";
    assert m == lead + path + (": " + ParseErrorText(reason));
    assert m[|lead|..|lead| + |path|] == path;
    assert OccursAt(m, path, |lead|);
  }

  /** The callback goes on to read the file: no walk error, not a directory, a `.md` path. */
  predicate Selected(e: Entry) {
    e.walkErr.None? && !e.isDir && HasSuffix(e.path, Markdown.SourceExt)
  }

  /** The page of an entry whose file was read and parsed. */
  predicate Parses(e: Entry, lib: Markdown.Library) {
    e.data.Ok? && Markdown.ParseMarkdownWithFrontMatter(e.data.value, e.path, lib).Ok?
  }

  function PageOf(e: Entry, lib: Markdown.Library): Markdown.Page
    requires Parses(e, lib)
  {
    Markdown.ParseMarkdownWithFrontMatter(e.data.value, e.path, lib).value
  }

  /** The effects of writing one file: its directory, the file, the template run into it. */
  function WriteOps(path: string, view: View): seq<Op> {
    [MakeDirs(Paths.Dir(path)), CreateFile(path), Render(path, view)]
  }

  /** Helper: the lengths of the prefixes of a file write's three effects. */
  lemma WriteOpsPrefixes(path: string, view: View)
    ensures |WriteOps(path, view)| == 3 && WriteOps(path, view)[..3] == WriteOps(path, view)
    ensures |WriteOps(path, view)[..1]| == 1 && |WriteOps(path, view)[..2]| == 2
  {
  }

  /** Every step of writing `page` succeeds. */
  predicate PageWritten(page: Markdown.Page, env: Env) {
    env.mkdirAll(Paths.Dir(page.path)).None? && env.create(page.path).None? && env.executePage(page).None?
  }

  /** Writing one page: the attempted effects and the first error. */
  function WritePage(page: Markdown.Page, env: Env): (r: (seq<Op>, Option<BuildError>))
    ensures r.1.None? <==> PageWritten(page, env)
    ensures r.1.None? ==> r.0 == WriteOps(page.path, PageView(page))
    ensures 1 <= |r.0| <= 3 && r.0 == WriteOps(page.path, PageView(page))[..|r.0|]
    ensures |r.0| == 1 <==> env.mkdirAll(Paths.Dir(page.path)).Some?
    ensures |r.0| == 2 <==> env.mkdirAll(Paths.Dir(page.path)).None? && env.create(page.path).Some?
    ensures env.mkdirAll(Paths.Dir(page.path)).Some? ==>
              r.1 == Some(MkdirFailed(env.mkdirAll(Paths.Dir(page.path)).value))
    ensures env.mkdirAll(Paths.Dir(page.path)).None? && env.create(page.path).Some? ==>
              r.1 == Some(CreateFailed(env.create(page.path).value))
    ensures env.mkdirAll(Paths.Dir(page.path)).None? && env.create(page.path).None? && env.executePage(page).Some? ==>
              r.1 == Some(Unwrapped(env.executePage(page).value))
  {
    var ops := WriteOps(page.path, PageView(page));
    WriteOpsPrefixes(page.path, PageView(page));
    match env.mkdirAll(Paths.Dir(page.path))
    case Some(e) => (ops[..1], Some(MkdirFailed(e)))
    case None =>
      match env.create(page.path)
      case Some(e) => (ops[..2], Some(CreateFailed(e)))
      case None =>
        match env.executePage(page)
        case Some(e) => (ops, Some(Unwrapped(e)))
        case None => (ops, None)
  }

  /** What one callback did and how it ended: an error, nothing, or a page. */
  datatype Step = Step(ops: seq<Op>, outcome: Result<Option<Markdown.Page>, BuildError>)

  /** The walk callback on one entry. */
  function Visit(e: Entry, env: Env): (r: Step)
    ensures e.walkErr.Some? ==> r == Step([], Err(Unwrapped(e.walkErr.value)))
    ensures e.walkErr.None? && !Selected(e) ==> r == Step([], Ok(None))
    ensures Selected(e) && !Parses(e, env.lib) ==>
              r.ops == [ReadFile(e.path)]
              && r.outcome == Err(if e.data.Err? then ReadFailed(e.data.error)
                                  else ParseFailed(e.path, Markdown.ParseMarkdownWithFrontMatter(e.data.value, e.path, env.lib).error))
    ensures Selected(e) && Parses(e, env.lib) ==>
              r.ops == [ReadFile(e.path)] + WritePage(PageOf(e, env.lib), env).0
              && r.outcome == (if WritePage(PageOf(e, env.lib), env).1.Some?
                               then Err(WritePage(PageOf(e, env.lib), env).1.value)
                               else Ok(Some(PageOf(e, env.lib))))
    ensures r.outcome.Ok? && Selected(e) ==>
              Parses(e, env.lib) && r.outcome.value == Some(PageOf(e, env.lib))
              && r.ops == [ReadFile(e.path)] + WriteOps(PageOf(e, env.lib).path, PageView(PageOf(e, env.lib)))
    ensures r.outcome.Ok? <==> e.walkErr.None? && (Selected(e) ==> Parses(e, env.lib) && PageWritten(PageOf(e, env.lib), env))
  {
    if e.walkErr.Some? then Step([], Err(Unwrapped(e.walkErr.value)))
    else if !Selected(e) then Step([], Ok(None))
    else
      match e.data
      case Err(cause) => Step([ReadFile(e.path)], Err(ReadFailed(cause)))
      case Ok(input) =>
        match Markdown.ParseMarkdownWithFrontMatter(input, e.path, env.lib)
        case Err(reason) => Step([ReadFile(e.path)], Err(ParseFailed(e.path, reason)))
        case Ok(page) =>
          var (ops, err) := WritePage(page, env);
          Step([ReadFile(e.path)] + ops, if err.Some? then Err(err.value) else Ok(Some(page)))
  }

  /** The effects of the walk so far and either the collected pages or the error that stopped it. */
  datatype WalkResult = WalkResult(log: seq<Op>, outcome: Result<seq<Markdown.Page>, BuildError>)

  /** A finished walk followed by the walk over further entries. */
  function Chain(first: WalkResult, next: WalkResult): WalkResult
    requires first.outcome.Ok?
  {
    WalkResult(first.log + next.log,
               if next.outcome.Ok? then Ok(first.outcome.value + next.outcome.value) else next.outcome)
  }

  /** Helper: chaining walk results is associative. */
  lemma ChainAssociative(x: WalkResult, y: WalkResult, z: WalkResult)
    requires x.outcome.Ok? && y.outcome.Ok?
    ensures Chain(Chain(x, y), z) == Chain(x, Chain(y, z))
  {
    assert (x.log + y.log) + z.log == x.log + (y.log + z.log);
    if z.outcome.Ok? {
      assert (x.outcome.value + y.outcome.value) + z.outcome.value
          == x.outcome.value + (y.outcome.value + z.outcome.value);
    }
  }

  /** Helper: the empty walk is a left unit of chaining. */
  lemma ChainNothing(x: WalkResult)
    ensures Chain(WalkResult([], Ok([])), x) == x
  {
    assert [] + x.log == x.log;
    if x.outcome.Ok? {
      assert [] + x.outcome.value == x.outcome.value;
    }
  }

  /** The walk so far as one result: the callback's effects and its page, if any. */
  function StepResult(step: Step): WalkResult
    requires step.outcome.Ok?
  {
    var found := step.outcome.value;
    WalkResult(step.ops, Ok(if found.Some? then [found.value] else []))
  }

  /**
   `filepath.WalkDir` over the entries in walk order: the callback runs on
   each, and the first error it returns stops the walk and is returned.
   */
  function WalkDir(entries: seq<Entry>, callback: Entry -> Step): (r: WalkResult)
    ensures r.outcome.Ok? <==> forall i :: 0 <= i < |entries| ==> callback(entries[i]).outcome.Ok?
    ensures r.outcome.Err? ==>
              exists i :: 0 <= i < |entries| && callback(entries[i]).outcome == Err(r.outcome.error)
                          && forall j :: 0 <= j < i ==> callback(entries[j]).outcome.Ok?
    decreases |entries|
  {
    if |entries| == 0 then WalkResult([], Ok([]))
    else
      var step := callback(entries[0]);
      if step.outcome.Err? then WalkResult(step.ops, Err(step.outcome.error))
      else
        var rest := WalkDir(entries[1..], callback);
        WalkTail(entries, callback, rest);
        Chain(StepResult(step), rest)
  }

  /** What the walk over all but the first entry says about the callbacks on the whole run. */
  lemma WalkTail(entries: seq<Entry>, callback: Entry -> Step, rest: WalkResult)
    requires |entries| > 0 && callback(entries[0]).outcome.Ok?
    requires rest.outcome.Ok? <==> forall i :: 0 <= i < |entries| - 1 ==> callback(entries[1..][i]).outcome.Ok?
    requires rest.outcome.Err? ==>
               exists i :: 0 <= i < |entries| - 1 && callback(entries[1..][i]).outcome == Err(rest.outcome.error)
                           && forall j :: 0 <= j < i ==> callback(entries[1..][j]).outcome.Ok?
    ensures rest.outcome.Ok? <==> forall i :: 0 <= i < |entries| ==> callback(entries[i]).outcome.Ok?
    ensures rest.outcome.Err? ==>
              exists i :: 0 <= i < |entries| && callback(entries[i]).outcome == Err(rest.outcome.error)
                          && forall j :: 0 <= j < i ==> callback(entries[j]).outcome.Ok?
  {
    assert forall i :: 1 <= i < |entries| ==> entries[1..][i - 1] == entries[i];
    if rest.outcome.Err? {
      var k :| 0 <= k < |entries| - 1 && callback(entries[1..][k]).outcome == Err(rest.outcome.error)
                && forall j :: 0 <= j < k ==> callback(entries[1..][j]).outcome.Ok?;
      assert entries[k + 1] == entries[1..][k];
      assert forall j :: 1 <= j < k + 1 ==> callback(entries[j]).outcome.Ok? by {
        forall j | 1 <= j < k + 1
          ensures callback(entries[j]).outcome.Ok?
        {
          assert entries[j] == entries[1..][j - 1];
        }
      }
    }
  }

  /** Walking `a + b` is walking `a` and, only if that raised no error, going on with `b`. */
  lemma {:induction false} WalkAppend(a: seq<Entry>, b: seq<Entry>, callback: Entry -> Step)
    ensures WalkDir(a, callback).outcome.Err? ==> WalkDir(a + b, callback) == WalkDir(a, callback)
    ensures WalkDir(a, callback).outcome.Ok? ==>
              WalkDir(a + b, callback) == Chain(WalkDir(a, callback), WalkDir(b, callback))
    decreases |a|
  {
    if |a| == 0 {
      assert a + b == b;
      ChainNothing(WalkDir(b, callback));
    } else {
      assert (a + b)[0] == a[0];
      assert (a + b)[1..] == a[1..] + b;
      WalkAppend(a[1..], b, callback);
      var step := callback(a[0]);
      if step.outcome.Ok? && WalkDir(a[1..], callback).outcome.Ok? {
        ChainAssociative(StepResult(step), WalkDir(a[1..], callback), WalkDir(b, callback));
      }
    }
  }

  /** The callback `Build` passes to the walk. */
  function Callback(env: Env): Entry -> Step {
    e => Visit(e, env)
  }

  /** A walk error is returned as it is and nothing after it is visited. */
  lemma WalkErrorStops(done: seq<Entry>, e: Entry, rest: seq<Entry>, env: Env)
    requires WalkDir(done, Callback(env)).outcome.Ok? && e.walkErr.Some?
    ensures WalkDir(done + [e] + rest, Callback(env))
            == WalkResult(WalkDir(done, Callback(env)).log, Err(Unwrapped(e.walkErr.value)))
  {
    assert done + [e] + rest == done + ([e] + rest);
    WalkAppend(done, [e] + rest, Callback(env));
    assert Callback(env)(e) == Visit(e, env);
    assert WalkDir([e] + rest, Callback(env)) == WalkResult([], Err(Unwrapped(e.walkErr.value)));
    assert WalkDir(done, Callback(env)).log + [] == WalkDir(done, Callback(env)).log;
  }

  /** Directories and files other than `.md` leave no trace. */
  lemma SkippedEntry(done: seq<Entry>, e: Entry, rest: seq<Entry>, env: Env)
    requires e.walkErr.None? && !Selected(e)
    ensures WalkDir(done + [e] + rest, Callback(env)) == WalkDir(done + rest, Callback(env))
  {
    assert done + [e] + rest == done + ([e] + rest);
    WalkAppend(done, [e] + rest, Callback(env));
    WalkAppend(done, rest, Callback(env));
    assert ([e] + rest)[1..] == rest;
    assert Callback(env)(e) == Visit(e, env);
    ChainNothing(WalkDir(rest, Callback(env)));
  }

  /**
   A file that cannot be read or parsed ends the walk: after its read
   nothing is created for it and no later entry is read.
   */
  lemma ReadOrParseFailureAborts(done: seq<Entry>, e: Entry, rest: seq<Entry>, env: Env)
    requires WalkDir(done, Callback(env)).outcome.Ok? && Selected(e) && !Parses(e, env.lib)
    ensures WalkDir(done + [e] + rest, Callback(env)).log == WalkDir(done, Callback(env)).log + [ReadFile(e.path)]
    ensures WalkDir(done + [e] + rest, Callback(env)).outcome
            == Err(if e.data.Err? then ReadFailed(e.data.error)
                   else ParseFailed(e.path, Markdown.ParseMarkdownWithFrontMatter(e.data.value, e.path, env.lib).error))
  {
    assert done + [e] + rest == done + ([e] + rest);
    WalkAppend(done, [e] + rest, Callback(env));
    assert Callback(env)(e) == Visit(e, env);
  }

  /** The page the walk takes from an entry: a selected file that was read and parsed. */
  function Found(lib: Markdown.Library): Entry -> Option<Markdown.Page> {
    e => if Selected(e) && Parses(e, lib) then Some(PageOf(e, lib)) else None
  }

  /** No error anywhere along the walk. */
  predicate WalkSucceeds(entries: seq<Entry>, env: Env) {
    forall i :: 0 <= i < |entries| ==> Visit(entries[i], env).outcome.Ok?
  }

  /** The pages found in the entries, in walk order. */
  function Collected(entries: seq<Entry>, found: Entry -> Option<Markdown.Page>): (pages: seq<Markdown.Page>)
    decreases |entries|
  {
    if |entries| == 0 then []
    else (if found(entries[0]).Some? then [found(entries[0]).value] else []) + Collected(entries[1..], found)
  }

  /** The effects of a walk with no error: per page found, the read of its file and its write. */
  function ExpectedLog(entries: seq<Entry>, found: Entry -> Option<Markdown.Page>): seq<Op>
    decreases |entries|
  {
    if |entries| == 0 then []
    else
      (if found(entries[0]).Some?
       then [ReadFile(entries[0].path)] + WriteOps(found(entries[0]).value.path, PageView(found(entries[0]).value))
       else [])
      + ExpectedLog(entries[1..], found)
  }

  /** The callback on a single entry, in the terms of `Found`. */
  lemma VisitSucceeds(e: Entry, env: Env)
    requires Visit(e, env).outcome.Ok?
    ensures StepResult(Visit(e, env)).outcome.value
            == (if Found(env.lib)(e).Some? then [Found(env.lib)(e).value] else [])
    ensures Visit(e, env).ops
            == (if Found(env.lib)(e).Some?
                then [ReadFile(e.path)] + WriteOps(Found(env.lib)(e).value.path, PageView(Found(env.lib)(e).value))
                else [])
  {
  }

  /**
   The walk ends without error exactly when no callback fails; then its
   pages are the parsed `.md` files in walk order and its effects are one
   read and one write per page.
   */
  lemma {:induction false} WalkOutcome(entries: seq<Entry>, env: Env)
    ensures WalkDir(entries, Callback(env)).outcome.Ok? <==> WalkSucceeds(entries, env)
    ensures WalkDir(entries, Callback(env)).outcome.Ok? ==>
              WalkDir(entries, Callback(env)).outcome.value == Collected(entries, Found(env.lib))
              && WalkDir(entries, Callback(env)).log == ExpectedLog(entries, Found(env.lib))
    decreases |entries|
  {
    if |entries| > 0 {
      WalkOutcome(entries[1..], env);
      assert Callback(env)(entries[0]) == Visit(entries[0], env);
      assert forall i :: 1 <= i < |entries| ==> entries[1..][i - 1] == entries[i];
      if Visit(entries[0], env).outcome.Ok? {
        VisitSucceeds(entries[0], env);
      }
    }
  }

  /** The file writes in a log: creations and template runs. */
  function Writes(log: seq<Op>): (r: seq<Op>)
    decreases |log|
  {
    if |log| == 0 then []
    else (if log[0].CreateFile? || log[0].Render? then [log[0]] else []) + Writes(log[1..])
  }

  /** One file per page, at the page's own path, holding that page. */
  function PageWrites(pages: seq<Markdown.Page>): (r: seq<Op>)
    decreases |pages|
  {
    if |pages| == 0 then []
    else [CreateFile(pages[0].path), Render(pages[0].path, PageView(pages[0]))] + PageWrites(pages[1..])
  }

  /** Helper: the file writes of two logs are those of each, in order. */
  lemma {:induction false} WritesAppend(a: seq<Op>, b: seq<Op>)
    ensures Writes(a + b) == Writes(a) + Writes(b)
    decreases |a|
  {
    if |a| == 0 {
      assert a + b == b;
    } else {
      assert a + b == [a[0]] + (a[1..] + b);
      assert a == [a[0]] + a[1..];
      WritesCons(a[0], a[1..] + b);
      WritesCons(a[0], a[1..]);
      WritesAppend(a[1..], b);
    }
  }

  /** Helper: one unfolding of `Writes` on a log with a first effect. */
  lemma WritesCons(x: Op, rest: seq<Op>)
    ensures Writes([x] + rest) == (if x.CreateFile? || x.Render? then [x] else []) + Writes(rest)
  {
    assert ([x] + rest)[1..] == rest;
  }

  /** Helper: a page's read and write contribute its creation and render. */
  lemma PageWritesOfOne(path: string, p: Markdown.Page)
    ensures Writes([ReadFile(path)] + WriteOps(p.path, PageView(p))) == [CreateFile(p.path), Render(p.path, PageView(p))]
  {
    var render := Render(p.path, PageView(p));
    WritesCons(render, []);
    WritesCons(CreateFile(p.path), [render]);
    WritesCons(MakeDirs(Paths.Dir(p.path)), [CreateFile(p.path), render]);
    WritesCons(ReadFile(path), WriteOps(p.path, PageView(p)));
  }

  /** In a walk without error, each collected page is written exactly once, at its path. */
  lemma {:induction false} OneWritePerPage(entries: seq<Entry>, found: Entry -> Option<Markdown.Page>)
    ensures Writes(ExpectedLog(entries, found)) == PageWrites(Collected(entries, found))
    decreases |entries|
  {
    if |entries| > 0 {
      OneWritePerPage(entries[1..], found);
      var e := entries[0];
      var rest := ExpectedLog(entries[1..], found);
      if found(e).Some? {
        var p := found(e).value;
        var mine := [ReadFile(e.path)] + WriteOps(p.path, PageView(p));
        WritesAppend(mine, rest);
        PageWritesOfOne(e.path, p);
        assert ([p] + Collected(entries[1..], found))[1..] == Collected(entries[1..], found);
      } else {
        assert ExpectedLog(entries, found) == rest;
        assert Collected(entries, found) == Collected(entries[1..], found);
      }
    }
  }

  /** The sort key: the date text of the front matter. */
  function DateKey(p: Markdown.Page): string {
    p.date
  }

  /** Writing the blog index; every error here is returned unwrapped. */
  function WriteIndex(pages: seq<Markdown.Page>, env: Env): (r: (seq<Op>, Option<BuildError>))
    ensures r.1.None? <==>
              env.mkdirAll(Paths.Dir(IndexPath)).None? && env.create(IndexPath).None? && env.executeIndex(pages).None?
    ensures r.1.None? ==> r.0 == WriteOps(IndexPath, IndexView(pages))
    ensures 1 <= |r.0| <= 3 && r.0 == WriteOps(IndexPath, IndexView(pages))[..|r.0|]
    ensures |r.0| == 1 <==> env.mkdirAll(Paths.Dir(IndexPath)).Some?
    ensures |r.0| == 2 <==> env.mkdirAll(Paths.Dir(IndexPath)).None? && env.create(IndexPath).Some?
    ensures r.1.Some? ==>
              r.1.value == Unwrapped(if env.mkdirAll(Paths.Dir(IndexPath)).Some? then env.mkdirAll(Paths.Dir(IndexPath)).value
                                     else if env.create(IndexPath).Some? then env.create(IndexPath).value
                                     else env.executeIndex(pages).value)
  {
    WriteIndexAt(IndexPath, pages, env)
  }

  /** The index write at a given path: the steps of builder.go:79-89. */
  function WriteIndexAt(path: string, pages: seq<Markdown.Page>, env: Env): (r: (seq<Op>, Option<BuildError>))
    ensures r.1.None? <==>
              env.mkdirAll(Paths.Dir(path)).None? && env.create(path).None? && env.executeIndex(pages).None?
    ensures r.1.None? ==> r.0 == WriteOps(path, IndexView(pages))
    ensures 1 <= |r.0| <= 3 && r.0 == WriteOps(path, IndexView(pages))[..|r.0|]
    ensures |r.0| == 1 <==> env.mkdirAll(Paths.Dir(path)).Some?
    ensures |r.0| == 2 <==> env.mkdirAll(Paths.Dir(path)).None? && env.create(path).Some?
    ensures r.1.Some? ==>
              r.1.value == Unwrapped(if env.mkdirAll(Paths.Dir(path)).Some? then env.mkdirAll(Paths.Dir(path)).value
                                     else if env.create(path).Some? then env.create(path).value
                                     else env.executeIndex(pages).value)
  {
    var ops := WriteOps(path, IndexView(pages));
    WriteOpsPrefixes(path, IndexView(pages));
    match env.mkdirAll(Paths.Dir(path))
    case Some(e) => (ops[..1], Some(Unwrapped(e)))
    case None =>
      match env.create(path)
      case Some(e) => (ops[..2], Some(Unwrapped(e)))
      case None =>
        match env.executeIndex(pages)
        case Some(e) => (ops, Some(Unwrapped(e)))
        case None => (ops, None)
  }

  /** The effects of a build and the error it returns, if any. */
  datatype Outcome = Outcome(log: seq<Op>, err: Option<BuildError>)

  /**
   Build: parse the page template, walk, sort the pages newest first,
   parse the index template and write the index with the sorted pages.
   */
  function Build(entries: seq<Entry>, env: Env): (r: Outcome)
    ensures env.pageTemplateErr.Some? ==> r == Outcome([], Some(TemplateParse(env.pageTemplateErr.value)))
    ensures env.pageTemplateErr.None? && WalkDir(entries, Callback(env)).outcome.Err? ==>
              r == Outcome(WalkDir(entries, Callback(env)).log, Some(WalkDir(entries, Callback(env)).outcome.error))
    ensures env.pageTemplateErr.None? && WalkDir(entries, Callback(env)).outcome.Ok? && env.indexTemplateErr.Some? ==>
              r == Outcome(WalkDir(entries, Callback(env)).log, Some(IndexTemplateParse(env.indexTemplateErr.value)))
    ensures env.pageTemplateErr.None? && WalkDir(entries, Callback(env)).outcome.Ok? && env.indexTemplateErr.None? ==>
              var sorted := StableSort.SortDescending(WalkDir(entries, Callback(env)).outcome.value, DateKey);
              r == Outcome(WalkDir(entries, Callback(env)).log + WriteIndex(sorted, env).0, WriteIndex(sorted, env).1)
    ensures r.err.None? <==>
              env.pageTemplateErr.None? && WalkDir(entries, Callback(env)).outcome.Ok? && env.indexTemplateErr.None?
              && var sorted := StableSort.SortDescending(WalkDir(entries, Callback(env)).outcome.value, DateKey);
              && env.mkdirAll(Paths.Dir(IndexPath)).None? && env.create(IndexPath).None? && env.executeIndex(sorted).None?
    ensures r.err.None? ==>
              WalkDir(entries, Callback(env)).outcome.Ok?
              && var sorted := StableSort.SortDescending(WalkDir(entries, Callback(env)).outcome.value, DateKey);
              && r.log == WalkDir(entries, Callback(env)).log + WriteOps(IndexPath, IndexView(sorted))
  {
    match env.pageTemplateErr
    case Some(e) => Outcome([], Some(TemplateParse(e)))
    case None =>
      var walk := WalkDir(entries, Callback(env));
      match walk.outcome
      case Err(e) => Outcome(walk.log, Some(e))
      case Ok(pages) =>
        var sorted := StableSort.SortDescending(pages, DateKey);
        match env.indexTemplateErr
        case Some(e) => Outcome(walk.log, Some(IndexTemplateParse(e)))
        case None =>
          var (ops, err) := WriteIndex(sorted, env);
          Outcome(walk.log + ops, err)
  }

  /** The index renders in a log. */
  function IndexRenders(log: seq<Op>): (r: seq<seq<Markdown.Page>>)
    decreases |log|
  {
    if |log| == 0 then []
    else (if log[0].Render? && log[0].view.IndexView? then [log[0].view.pages] else []) + IndexRenders(log[1..])
  }

  /** Helper: the index renders of two logs are those of each, in order. */
  lemma {:induction false} IndexRendersAppend(a: seq<Op>, b: seq<Op>)
    ensures IndexRenders(a + b) == IndexRenders(a) + IndexRenders(b)
    decreases |a|
  {
    if |a| == 0 {
      assert a + b == b;
    } else {
      assert a + b == [a[0]] + (a[1..] + b);
      assert a == [a[0]] + a[1..];
      IndexRendersCons(a[0], a[1..] + b);
      IndexRendersCons(a[0], a[1..]);
      IndexRendersAppend(a[1..], b);
    }
  }

  /** Helper: one unfolding of `IndexRenders` on a log with a first effect. */
  lemma IndexRendersCons(x: Op, rest: seq<Op>)
    ensures IndexRenders([x] + rest)
            == (if x.Render? && x.view.IndexView? then [x.view.pages] else []) + IndexRenders(rest)
  {
    assert ([x] + rest)[1..] == rest;
  }

  /** The index renders among the effects of writing one file. */
  lemma IndexRendersOfWrite(path: string, view: View)
    ensures IndexRenders(WriteOps(path, view)) == (if view.IndexView? then [view.pages] else [])
  {
    IndexRendersCons(Render(path, view), []);
    IndexRendersCons(CreateFile(path), [Render(path, view)]);
    IndexRendersCons(MakeDirs(Paths.Dir(path)), [CreateFile(path), Render(path, view)]);
  }

  /** A page's callback never renders the index. */
  lemma VisitRendersNoIndex(e: Entry, env: Env)
    ensures IndexRenders(Visit(e, env).ops) == []
  {
    if Selected(e) && Parses(e, env.lib) {
      var p := PageOf(e, env.lib);
      var written := WritePage(p, env).0;
      IndexRendersOfWrite(p.path, PageView(p));
      PrefixRendersNoIndex(WriteOps(p.path, PageView(p)), |written|);
      IndexRendersCons(ReadFile(e.path), written);
    }
  }

  /** A walk whose callbacks never render the index renders none. */
  lemma {:induction false} WalkRendersNoIndex(entries: seq<Entry>, callback: Entry -> Step)
    requires forall e :: IndexRenders(callback(e).ops) == []
    ensures IndexRenders(WalkDir(entries, callback).log) == []
    decreases |entries|
  {
    if |entries| > 0 {
      var step := callback(entries[0]);
      if step.outcome.Ok? {
        WalkRendersNoIndex(entries[1..], callback);
        IndexRendersAppend(step.ops, WalkDir(entries[1..], callback).log);
      }
    }
  }

  /** Helper: a prefix of a log without index renders has none either. */
  lemma {:induction false} PrefixRendersNoIndex(log: seq<Op>, n: nat)
    requires n <= |log| && IndexRenders(log) == []
    ensures IndexRenders(log[..n]) == []
  {
    assert log == log[..n] + log[n..];
    IndexRendersAppend(log[..n], log[n..]);
  }

  /** The walk never renders the index, so a build whose walk fails renders none. */
  lemma FailedWalkRendersNoIndex(entries: seq<Entry>, env: Env)
    ensures IndexRenders(WalkDir(entries, Callback(env)).log) == []
    ensures WalkDir(entries, Callback(env)).outcome.Err? ==> IndexRenders(Build(entries, env).log) == []
  {
    forall e
      ensures IndexRenders(Callback(env)(e).ops) == []
    {
      VisitRendersNoIndex(e, env);
    }
    WalkRendersNoIndex(entries, Callback(env));
  }

  /**
   A build that returns no error walked without error and then rendered the
   index once, last, at `output/blog/index.html`, with every collected page
   sorted newest first, equal dates in walk order.
   */
  lemma IndexWrittenOnceAfterCleanWalk(entries: seq<Entry>, env: Env)
    requires Build(entries, env).err.None?
    ensures WalkSucceeds(entries, env)
    ensures var sorted := StableSort.SortDescending(Collected(entries, Found(env.lib)), DateKey);
            && IndexRenders(Build(entries, env).log) == [sorted]
            && Build(entries, env).log[|Build(entries, env).log| - 1] == Render(IndexPath, IndexView(sorted))
            && StableSort.IsStableSortOf(sorted, Collected(entries, Found(env.lib)), DateKey)
            && multiset(sorted) == multiset(Collected(entries, Found(env.lib)))
  {
    var walk := WalkDir(entries, Callback(env));
    WalkOutcome(entries, env);
    FailedWalkRendersNoIndex(entries, env);
    var sorted := StableSort.SortDescending(Collected(entries, Found(env.lib)), DateKey);
    var ops := WriteOps(IndexPath, IndexView(sorted));
    assert Build(entries, env).log == walk.log + ops;
    IndexRendersAppend(walk.log, ops);
    IndexRendersOfWrite(IndexPath, IndexView(sorted));
  }

  /**
   When every page's date is a valid `YYYY-MM-DD`, the text order used as
   the sort key is the calendar order: no page in a list sorted by it is
   older than one listed after it.
   */
  lemma NewestFirst(sorted: seq<Markdown.Page>)
    requires StableSort.SortedDescending(sorted, DateKey)
    requires forall i :: 0 <= i < |sorted| ==> Dates.IsFullDate(sorted[i].date)
    ensures forall i, j :: 0 <= i < j < |sorted| ==>
              !Dates.Before(Dates.DateOf(sorted[i].date), Dates.DateOf(sorted[j].date))
  {
    forall i, j | 0 <= i < j < |sorted|
      ensures !Dates.Before(Dates.DateOf(sorted[i].date), Dates.DateOf(sorted[j].date))
    {
      assert !LexLess(DateKey(sorted[i]), DateKey(sorted[j]));
      Dates.TextOrderIsDateOrder(sorted[i].date, sorted[j].date);
    }
  }

  /** The blog index lists pages with valid dates newest first. */
  lemma IndexIsNewestFirst(pages: seq<Markdown.Page>)
    requires forall i :: 0 <= i < |pages| ==> Dates.IsFullDate(pages[i].date)
    ensures var sorted := StableSort.SortDescending(pages, DateKey);
            && (forall i :: 0 <= i < |sorted| ==> Dates.IsFullDate(sorted[i].date))
            && forall i, j :: 0 <= i < j < |sorted| ==>
                 !Dates.Before(Dates.DateOf(sorted[i].date), Dates.DateOf(sorted[j].date))
  {
    var sorted := StableSort.SortDescending(pages, DateKey);
    forall i | 0 <= i < |sorted|
      ensures Dates.IsFullDate(sorted[i].date)
    {
      assert sorted[i] in multiset(pages);
      var a :| 0 <= a < |pages| && pages[a] == sorted[i];
    }
    NewestFirst(sorted);
  }

  /**
   A page without a date has the empty key, below every date, so in the
   index it comes after every dated page: the "oldest" fallback.
   */
  lemma UndatedPagesLast(sorted: seq<Markdown.Page>)
    requires StableSort.SortedDescending(sorted, DateKey)
    ensures forall i, j :: 0 <= i < j < |sorted| && sorted[i].date == "" ==> sorted[j].date == ""
  {
    forall i, j | 0 <= i < j < |sorted| && sorted[i].date == ""
      ensures sorted[j].date == ""
    {
      assert !LexLess(DateKey(sorted[i]), DateKey(sorted[j]));
    }
  }
}

=== FILE: dates.dfy ===
/**
 Dates as the page builder reads them: Go's `time.Parse("2006-01-02", s)`,
 which accepts exactly the `full-date` of section 5.6 of RFC 3339 (four-digit
 year, two-digit month and day) with the day-of-month limits of section 5.7,
 and yields that day at midnight UTC.
 */
module Dates {
  import opened Wrappers
  import opened Strings

  /** A calendar day at midnight UTC: everything such a `time.Time` holds. */
  datatype Time = Time(year: int, month: int, day: int)

  /** Go's zero `time.Time`, January 1 of year 1, 00:00:00 UTC. */
  const ZeroTime: Time := Time(1, 1, 1)

  /** Why `time.Parse` refused its input, in the order Go checks. */
  datatype DateError = CannotParse | MonthOutOfRange | ExtraText | DayOutOfRange

  /** `t` is an earlier instant than `u`. */
  predicate Before(t: Time, u: Time) {
    t.year < u.year
    || (t.year == u.year && t.month < u.month)
    || (t.year == u.year && t.month == u.month && t.day < u.day)
  }

  /** Gregorian leap years, as in Appendix C of RFC 3339 and Go's `isLeap`. */
  predicate IsLeapYear(year: int) {
    year % 4 == 0 && (year % 100 != 0 || year % 400 == 0)
  }

  /** The number of days in `month` of `year` (section 5.7 of RFC 3339). */
  function DaysIn(month: int, year: int): (n: int)
    requires 1 <= month <= 12
    ensures 28 <= n <= 31
    ensures n == 29 <==> month == 2 && IsLeapYear(year)
    ensures n == 28 <==> month == 2 && !IsLeapYear(year)
    ensures n == 30 <==> month in {4, 6, 9, 11}
  {
    if month == 2 then (if IsLeapYear(year) then 29 else 28)
    else if month == 4 || month == 6 || month == 9 || month == 11 then 30
    else 31
  }

  predicate IsDigit(c: char) {
    '0' <= c <= '9'
  }

  predicate AllDigits(s: string) {
    forall i :: 0 <= i < |s| ==> IsDigit(s[i])
  }

  function DigitValue(c: char): (d: nat)
    requires IsDigit(c)
    ensures d <= 9
  {
    c as int - '0' as int
  }

  function Digit(d: nat): (c: char)
    requires d <= 9
    ensures IsDigit(c) && DigitValue(c) == d
  {
    ('0' as int + d) as char
  }

  /** The number a string of decimal digits spells, most significant first. */
  function DigitsValue(s: string): nat
    requires AllDigits(s)
    decreases |s|
  {
    if |s| == 0 then 0 else DigitsValue(s[..|s| - 1]) * 10 + DigitValue(s[|s| - 1])
  }

  /** `n` written with exactly `width` digits, zero-padded, keeping the low digits. */
  function PadDigits(n: nat, width: nat): (s: string)
    ensures |s| == width && AllDigits(s)
    decreases width
  {
    if width == 0 then "" else PadDigits(n / 10, width - 1) + [Digit(n % 10)]
  }

  function Pow10(k: nat): (p: nat)
    ensures p >= 1
  {
    if k == 0 then 1 else 10 * Pow10(k - 1)
  }

  /** Writing a number that fits in `width` digits and reading it back gives the number. */
  lemma {:induction false} PadDigitsValue(n: nat, width: nat)
    requires n < Pow10(width)
    ensures DigitsValue(PadDigits(n, width)) == n
    decreases width
  {
    if width > 0 {
      var s := PadDigits(n, width);
      assert s[..|s| - 1] == PadDigits(n / 10, width - 1);
      PadDigitsValue(n / 10, width - 1);
    }
  }

  /** Reading digits and writing the number back with the same width gives the digits. */
  lemma {:induction false} DigitsValuePad(s: string)
    requires AllDigits(s)
    ensures PadDigits(DigitsValue(s), |s|) == s
    decreases |s|
  {
    if |s| > 0 {
      var front := s[..|s| - 1];
      var d := DigitValue(s[|s| - 1]);
      assert (DigitsValue(front) * 10 + d) / 10 == DigitsValue(front);
      assert (DigitsValue(front) * 10 + d) % 10 == d;
      DigitsValuePad(front);
      assert Digit(d) == s[|s| - 1];
      assert s == front + [s[|s| - 1]];
    }
  }

  /** Helper: the value of n digits is below 10^n. */
  lemma {:induction false} DigitsValueBound(s: string)
    requires AllDigits(s)
    ensures DigitsValue(s) < Pow10(|s|)
    decreases |s|
  {
    if |s| > 0 {
      DigitsValueBound(s[..|s| - 1]);
    }
  }

  /** Helper: arithmetic for moving a leading digit one decimal place up. */
  lemma ShiftDecimal(d: int, p: int, x: int, last: int)
    ensures (d * p + x) * 10 + last == d * (10 * p) + (x * 10 + last)
  {
  }

  /** Helper: a larger leading digit outweighs any lower digits. */
  lemma LeadingDigitDominates(da: nat, db: nat, p: nat, x: nat, y: nat)
    requires da < db && x < p
    ensures da * p + x < db * p + y
  {
    assert (da + 1) * p <= db * p;
  }

  /** The leading digit weighs `10^(|s| - 1)`. */
  lemma {:induction false} DigitsValueFront(s: string)
    requires |s| > 0 && AllDigits(s)
    ensures DigitsValue(s) == DigitValue(s[0]) * Pow10(|s| - 1) + DigitsValue(s[1..])
    decreases |s|
  {
    if |s| > 1 {
      var front := s[..|s| - 1];
      var tail := s[1..];
      var last := DigitValue(s[|s| - 1]);
      DigitsValueFront(front);
      assert front[1..] == tail[..|tail| - 1];
      assert front[0] == s[0];
      assert DigitsValue(tail) == DigitsValue(front[1..]) * 10 + last;
      ShiftDecimal(DigitValue(s[0]), Pow10(|s| - 2), DigitsValue(front[1..]), last);
    }
  }

  /** For digit strings of one length, text order is numeric order. */
  lemma {:induction false} LexLessDigits(a: string, b: string)
    requires |a| == |b| && AllDigits(a) && AllDigits(b)
    ensures LexLess(a, b) <==> DigitsValue(a) < DigitsValue(b)
    ensures a == b <==> DigitsValue(a) == DigitsValue(b)
    decreases |a|
  {
    if |a| > 0 {
      DigitsValueFront(a);
      DigitsValueFront(b);
      DigitsValueBound(a[1..]);
      DigitsValueBound(b[1..]);
      LexLessDigits(a[1..], b[1..]);
      var p := Pow10(|a| - 1);
      var da, db := DigitValue(a[0]), DigitValue(b[0]);
      if da < db {
        LeadingDigitDominates(da, db, p, DigitsValue(a[1..]), DigitsValue(b[1..]));
      } else if db < da {
        LeadingDigitDominates(db, da, p, DigitsValue(b[1..]), DigitsValue(a[1..]));
      } else {
        assert a[0] == b[0];
        assert a == [a[0]] + a[1..] && b == [b[0]] + b[1..];
      }
    }
  }

  /** Helper: the value of a two-digit string. */
  lemma DigitsValue2(s: string)
    requires |s| == 2 && AllDigits(s)
    ensures DigitsValue(s) == DigitValue(s[0]) * 10 + DigitValue(s[1])
  {
    var first := s[..1];
    assert first[..0] == "" && first[0] == s[0];
    assert DigitsValue(first) == DigitValue(s[0]);
    assert s[..|s| - 1] == first;
  }

  /** Helper: the value of a four-digit string. */
  lemma DigitsValue4(s: string)
    requires |s| == 4 && AllDigits(s)
    ensures DigitsValue(s) == DigitValue(s[0]) * 1000 + DigitValue(s[1]) * 100 + DigitValue(s[2]) * 10 + DigitValue(s[3])
  {
    DigitsValue2(s[..2]);
    assert s[..3][..2] == s[..2];
    assert s[..4] == s;
  }

  /** `s` is a `full-date` of RFC 3339 naming a day that exists. */
  predicate IsFullDate(s: string) {
    && |s| == 10
    && AllDigits(s[..4]) && s[4] == '-' && AllDigits(s[5..7]) && s[7] == '-' && AllDigits(s[8..])
    && 1 <= DigitsValue(s[5..7]) <= 12
    && 1 <= DigitsValue(s[8..]) <= DaysIn(DigitsValue(s[5..7]), DigitsValue(s[..4]))
  }

  /** The day a valid `full-date` names. */
  function DateOf(s: string): Time
    requires IsFullDate(s)
  {
    Time(DigitsValue(s[..4]), DigitsValue(s[5..7]), DigitsValue(s[8..]))
  }

  /**
   time.Parse with layout "2006-01-02": year, `-`, month, `-`, day, nothing
   after; a month outside 1..12 is reported as soon as it is read, the day
   is checked against the month only once the whole text has been read.
   */
  function ParseDate(s: string): (r: Result<Time, DateError>)
    ensures r.Ok? <==> IsFullDate(s)
    ensures r.Ok? ==> r.value == DateOf(s)
  {
    if |s| < 4 || !AllDigits(s[..4]) || |s| < 5 || s[4] != '-' || |s| < 7 || !AllDigits(s[5..7]) then
      Err(CannotParse)
    else if DigitsValue(s[5..7]) < 1 || 12 < DigitsValue(s[5..7]) then
      Err(MonthOutOfRange)
    else if |s| < 8 || s[7] != '-' || |s| < 10 || !AllDigits(s[8..10]) then
      Err(CannotParse)
    else if |s| > 10 then
      Err(ExtraText)
    else
      var year, month, day := DigitsValue(s[..4]), DigitsValue(s[5..7]), DigitsValue(s[8..10]);
      assert s[8..10] == s[8..];
      if day < 1 || DaysIn(month, year) < day then Err(DayOutOfRange)
      else Ok(Time(year, month, day))
  }

  /** A day whose year has at most four digits and whose month and day exist. */
  predicate IsValidTime(t: Time) {
    0 <= t.year <= 9999 && 1 <= t.month <= 12 && 1 <= t.day <= DaysIn(t.month, t.year)
  }

  /** The `full-date` text of a day, as Go's `Format("2006-01-02")` writes it. */
  function FormatDate(t: Time): string
    requires IsValidTime(t)
  {
    PadDigits(t.year, 4) + "-" + PadDigits(t.month, 2) + "-" + PadDigits(t.day, 2)
  }

  /** Formatting a valid day and parsing the text gives the day back. */
  lemma ParseFormat(t: Time)
    requires IsValidTime(t)
    ensures ParseDate(FormatDate(t)) == Ok(t)
  {
    FormatIsFullDate(t);
  }

  /** Helper: a formatted valid day is a full-date made of its padded parts. */
  lemma FormatIsFullDate(t: Time)
    requires IsValidTime(t)
    ensures IsFullDate(FormatDate(t)) && DateOf(FormatDate(t)) == t
  {
    SmallPowers();
    PadDigitsValue(t.year, 4);
    PadDigitsValue(t.month, 2);
    PadDigitsValue(t.day, 2);
    DateTextParts(PadDigits(t.year, 4), PadDigits(t.month, 2), PadDigits(t.day, 2));
  }

  /** Helper: the powers of ten the date widths use. */
  lemma SmallPowers()
    ensures Pow10(2) == 100 && Pow10(4) == 10000
  {
    assert Pow10(1) == 10;
    assert Pow10(3) == 1000;
  }

  /** The pieces of a `YYYY-MM-DD` text assembled from its fields. */
  lemma DateTextParts(y: string, m: string, d: string)
    requires |y| == 4 && |m| == 2 && |d| == 2
    ensures var s := y + "-" + m + "-" + d;
            |s| == 10 && s[..4] == y && s[4] == '-' && s[5..7] == m && s[7] == '-' && s[8..] == d
  {
  }

  /** Parsing a valid date text and formatting the day gives the text back. */
  lemma FormatParse(s: string)
    requires IsFullDate(s)
    ensures IsValidTime(DateOf(s)) && FormatDate(DateOf(s)) == s
  {
    DigitsValueBound(s[..4]);
    DigitsValuePad(s[..4]);
    DigitsValuePad(s[5..7]);
    DigitsValuePad(s[8..]);
    assert s == s[..4] + "-" + s[5..7] + "-" + s[8..];
  }

  /**
   On valid dates, comparing the texts as Go compares strings orders the
   days chronologically, so a sort on the date text is a sort by date.
   */
  lemma TextOrderIsDateOrder(a: string, b: string)
    requires IsFullDate(a) && IsFullDate(b)
    ensures LexLess(a, b) <==> Before(DateOf(a), DateOf(b))
  {
    LexLessDigits(a[..4], b[..4]);
    LexLessDigits(a[5..7], b[5..7]);
    LexLessDigits(a[8..], b[8..]);
    assert a == a[..4] + (a[4..5] + (a[5..7] + (a[7..8] + a[8..])));
    assert b == b[..4] + (b[4..5] + (b[5..7] + (b[7..8] + b[8..])));
    assert a[4..5] == b[4..5] == "-" && a[7..8] == b[7..8] == "-";
    LexLessConcat(a[..4], a[4..5] + (a[5..7] + (a[7..8] + a[8..])), b[..4], b[4..5] + (b[5..7] + (b[7..8] + b[8..])));
    LexLessConcat(a[4..5], a[5..7] + (a[7..8] + a[8..]), b[4..5], b[5..7] + (b[7..8] + b[8..]));
    LexLessConcat(a[5..7], a[7..8] + a[8..], b[5..7], b[7..8] + b[8..]);
    LexLessConcat(a[7..8], a[8..], b[7..8], b[8..]);
    LexLessIrreflexive(a[4..5]);
    LexLessIrreflexive(a[7..8]);
  }

  /** Dates past their month's last day are refused: 2023-02-29 is not a day, 2024-02-29 is. */
  lemma LeapDayExample()
    ensures ParseDate("2023-02-29") == Err(DayOutOfRange)
    ensures ParseDate("2024-02-29") == Ok(Time(2024, 2, 29))
  {
    YearValue("2023", 2023);
    YearValue("2024", 2024);
    FebruaryTheTwentyNinth("2023");
    FebruaryTheTwentyNinth("2024");
    assert "2023" + "-" + "02" + "-" + "29" == "2023-02-29";
    assert "2024" + "-" + "02" + "-" + "29" == "2024-02-29";
  }

  /** Helper: the value of a four-digit year string. */
  lemma YearValue(y: string, v: int)
    requires |y| == 4 && AllDigits(y)
    requires v == DigitValue(y[0]) * 1000 + DigitValue(y[1]) * 100 + DigitValue(y[2]) * 10 + DigitValue(y[3])
    ensures DigitsValue(y) == v
  {
    DigitsValue4(y);
  }

  /** The 29th of February of a four-digit year parses exactly in leap years. */
  lemma FebruaryTheTwentyNinth(y: string)
    requires |y| == 4 && AllDigits(y)
    ensures var s := y + "-" + "02" + "-" + "29";
            ParseDate(s) == if IsLeapYear(DigitsValue(y)) then Ok(Time(DigitsValue(y), 2, 29)) else Err(DayOutOfRange)
  {
    var s := y + "-" + "02" + "-" + "29";
    DateTextParts(y, "02", "29");
    DigitsValue2("02");
    DigitsValue2("29");
    assert s[8..10] == s[8..];
  }
}

=== FILE: front_matter.dfy ===
/**
 The split both page builders perform: `strings.SplitN(content, "---", 3)`.
 A document "has front matter" when it starts with the delimiter; the split
 then yields an empty first part, the metadata, and the body.
 */
module FrontMatterSplit {
  import opened Wrappers
  import opened Strings

  const Delimiter: string := "---"

  predicate StartsWithDelimiter(content: string) {
    HasPrefix(content, Delimiter)
  }

  /** At most three parts that join back, with the delimiter, into the content. */
  function SplitParts(content: string): (parts: seq<string>)
    ensures 1 <= |parts| <= 3
    ensures JoinWith(parts, Delimiter) == content
    ensures forall i :: 0 <= i < |parts| - 1 ==> !Contains(parts[i], Delimiter)
  {
    SplitN(content, Delimiter, 3)
  }

  /**
   For content that opens with the delimiter the split has three parts
   exactly when another, non-overlapping delimiter follows the first three
   characters. Then the first part is empty, the metadata is the text up to
   the first such delimiter, and the body is everything after it (later
   delimiters included).
   */
  lemma PrefixedSplit(content: string)
    requires StartsWithDelimiter(content)
    ensures |SplitParts(content)| == 3 <==> Contains(content[3..], Delimiter)
    ensures |SplitParts(content)| == 3 ==>
              && SplitParts(content)[0] == ""
              && Index(content[3..], Delimiter) == Some(|SplitParts(content)[1]|)
              && SplitParts(content)[1] == content[3..3 + |SplitParts(content)[1]|]
              && SplitParts(content)[2] == content[6 + |SplitParts(content)[1]|..]
              && content == Delimiter + SplitParts(content)[1] + Delimiter + SplitParts(content)[2]
  {
    var rest := content[3..];
    SplitShape(content);
    assert content == Delimiter + rest;
    match Index(rest, Delimiter)
    case None =>
    case Some(m) => ThreeParts(content, rest, m);
  }

  /** The three parts of a prefixed document, given where the second delimiter starts. */
  lemma ThreeParts(content: string, rest: string, m: nat)
    requires content == Delimiter + rest && Index(rest, Delimiter) == Some(m) && m + 3 <= |rest|
    ensures |rest[..m]| == m && rest[..m] == content[3..3 + m] && rest[m + 3..] == content[6 + m..]
    ensures content == Delimiter + rest[..m] + Delimiter + rest[m + 3..]
  {
    CutAt(rest, Delimiter, m);
    assert rest[m + 3..] == content[6 + m..];
    ConcatAssociative4(Delimiter, rest[..m], Delimiter, rest[m + 3..]);
  }

  /** Helper: the split of prefixed content in terms of the first later delimiter. */
  lemma SplitShape(content: string)
    requires StartsWithDelimiter(content)
    ensures Index(content[3..], Delimiter).None? ==> SplitParts(content) == ["", content[3..]]
    ensures Index(content[3..], Delimiter).Some? ==>
              var m := Index(content[3..], Delimiter).value;
              m + 3 <= |content[3..]| && SplitParts(content) == ["", content[3..][..m], content[3..][m + 3..]]
  {
    SplitNLeading(content, Delimiter, 3);
    SplitNTwo(content[3..], Delimiter);
  }
}

=== FILE: markdown.dfy ===
/**
 The strict page builder of internal/parser/markdown.go,
 `ParseMarkdownWithFrontMatter`: front matter is required, the slug defaults
 to the file name without `.md`, and the output path is the source path with
 its first `content` turned into `output` and `.md` into `.html`.
 */
module Markdown {
  import opened Wrappers
  import opened Strings
  import opened Paths
  import opened FrontMatterSplit

  /** The values YAML fills in (the `yaml:"-"` fields are never read from YAML). */
  datatype PageFields = PageFields(title: string, date: string, tags: seq<string>, slug: string, template: string)

  /** The `Page` struct of markdown.go: front-matter values, rendered HTML and output path. */
  datatype Page = Page(
    title: string,
    date: string,
    tags: seq<string>,
    slug: string,
    template: string,
    content: string,
    path: string)

  /** YAML decoding and Markdown rendering (common extensions), outside the model. */
  datatype Library = Library(
    decodeYaml: string -> Result<PageFields, string>,
    toHtml: string -> string)

  datatype ParseError =
    | MissingFrontMatter
    | InvalidFrontMatterFormat
    | YamlError(cause: string)

  const SourceExt: string := ".md"
  const OutputExt: string := ".html"
  const SourceRoot: string := "content"
  const OutputRoot: string := "output"

  /**
   Where a source file is written: `.md` dropped, the first `content`
   replaced by `output`, `.html` appended. Nothing but the source path is
   consulted, so an explicit slug never moves a page.
   */
  function OutputPathOf(path: string): (r: string)
    ensures HasSuffix(r, OutputExt)
    ensures !Contains(TrimSuffix(path, SourceExt), SourceRoot) ==> r == TrimSuffix(path, SourceExt) + OutputExt
  {
    var r := ReplaceFirst(TrimSuffix(path, SourceExt), SourceRoot, OutputRoot) + OutputExt;
    assert r[|r| - |OutputExt|..] == OutputExt;
    r
  }

  /**
   Only the first `content` of the `.md`-stripped path changes: text before
   it and every later `content` stay as they are.
   */
  lemma OutputPathFirstOccurrence(path: string, pre: string, post: string)
    requires TrimSuffix(path, SourceExt) == pre + SourceRoot + post
    requires forall j :: 0 <= j < |pre| ==> !OccursAt(TrimSuffix(path, SourceExt), SourceRoot, j)
    ensures OutputPathOf(path) == pre + OutputRoot + post + OutputExt
  {
    ReplaceFirstAt(TrimSuffix(path, SourceExt), SourceRoot, OutputRoot, pre, post);
  }

  /** A file found under `content/` gets the output path at the same place under `output/`. */
  lemma OutputPathUnderContent(rest: string)
    ensures OutputPathOf(SourceRoot + "/" + rest + SourceExt) == OutputRoot + "/" + rest + OutputExt
  {
    var path := SourceRoot + "/" + rest + SourceExt;
    assert HasSuffix(path, SourceExt) by {
      assert path[|path| - 3..] == SourceExt;
    }
    assert TrimSuffix(path, SourceExt) == "" + SourceRoot + ("/" + rest) by {
      assert path[..|path| - 3] == SourceRoot + "/" + rest;
    }
    OutputPathFirstOccurrence(path, "", "/" + rest);
  }

  /** The slug stage: an explicit slug is kept, otherwise the base name without `.md`. */
  function SlugOf(explicit: string, path: string): (r: string)
    ensures explicit != "" ==> r == explicit
    ensures explicit == "" ==> r != ""
    ensures explicit == "" && TrimSuffix(path, SourceExt) == "" ==> r == "."
    ensures explicit == "" && TrimSuffix(path, SourceExt) != "" && TrimTrailingSlashes(TrimSuffix(path, SourceExt)) == "" ==>
              r == "/"
    ensures explicit == "" && TrimTrailingSlashes(TrimSuffix(path, SourceExt)) != "" ==>
              var t := TrimTrailingSlashes(TrimSuffix(path, SourceExt));
              '/' !in r && HasSuffix(t, r) && (|r| == |t| || HasSuffix(t, "/" + r))
  {
    if explicit == "" then Base(TrimSuffix(path, SourceExt)) else explicit
  }

  /**
   ParseMarkdownWithFrontMatter(content, path): the front-matter block is
   mandatory; the body after the second delimiter goes to the renderer as it
   is, without trimming.
   */
  function ParseMarkdownWithFrontMatter(content: string, path: string, lib: Library): (r: Result<Page, ParseError>)
    ensures !StartsWithDelimiter(content) ==> r == Err(MissingFrontMatter)
    ensures StartsWithDelimiter(content) ==> (r == Err(InvalidFrontMatterFormat) <==> |SplitParts(content)| < 3)
    ensures StartsWithDelimiter(content) && |SplitParts(content)| == 3 ==>
              (r.Ok? <==> lib.decodeYaml(SplitParts(content)[1]).Ok?)
    ensures StartsWithDelimiter(content) && |SplitParts(content)| == 3 && lib.decodeYaml(SplitParts(content)[1]).Err? ==>
              r == Err(YamlError(lib.decodeYaml(SplitParts(content)[1]).error))
    ensures r.Ok? ==>
              |SplitParts(content)| == 3
              && r.value.content == lib.toHtml(SplitParts(content)[2])
              && r.value.path == OutputPathOf(path)
    ensures r.Ok? ==>
              lib.decodeYaml(SplitParts(content)[1]).Ok?
              && var fields := lib.decodeYaml(SplitParts(content)[1]).value;
              && r.value.title == fields.title && r.value.date == fields.date && r.value.tags == fields.tags
              && r.value.template == fields.template
              && r.value.slug == SlugOf(fields.slug, path)
  {
    if !StartsWithDelimiter(content) then Err(MissingFrontMatter)
    else
      var parts := SplitParts(content);
      if |parts| < 3 then Err(InvalidFrontMatterFormat)
      else
        match lib.decodeYaml(parts[1])
        case Err(e) => Err(YamlError(e))
        case Ok(fields) =>
          Ok(Page(fields.title, fields.date, fields.tags, SlugOf(fields.slug, path), fields.template,
                  lib.toHtml(parts[2]), OutputPathOf(path)))
  }

  /**
   With a leading delimiter, the document is refused as malformed exactly
   when no second delimiter follows the first three characters.
   */
  lemma HalfFormedBlockRejected(content: string, path: string, lib: Library)
    requires StartsWithDelimiter(content)
    ensures ParseMarkdownWithFrontMatter(content, path, lib) == Err(InvalidFrontMatterFormat)
            <==> !Contains(content[3..], Delimiter)
  {
    PrefixedSplit(content);
  }

  /**
   The derived slug of a file found under `content/` is its file name
   without `.md`: it holds no separator.
   */
  lemma DerivedSlugIsFileName(dirs: string, name: string, content: string, lib: Library)
    requires '/' !in name && name != ""
    requires ParseMarkdownWithFrontMatter(content, SourceRoot + "/" + dirs + name + SourceExt, lib).Ok?
    requires lib.decodeYaml(SplitParts(content)[1]).value.slug == ""
    requires dirs == "" || dirs[|dirs| - 1] == '/'
    ensures ParseMarkdownWithFrontMatter(content, SourceRoot + "/" + dirs + name + SourceExt, lib).value.slug == name
  {
    var stem := SourceRoot + "/" + dirs + name;
    TrimSourceExt(stem);
    assert stem == (SourceRoot + "/" + dirs) + name;
    BaseOfName(SourceRoot + "/" + dirs, name);
  }

  /** Helper: `TrimSuffix` removes an appended `.md`. */
  lemma TrimSourceExt(stem: string)
    ensures TrimSuffix(stem + SourceExt, SourceExt) == stem
  {
    var path := stem + SourceExt;
    assert path[|path| - 3..] == SourceExt;
    assert path[..|path| - 3] == stem;
  }
}

=== FILE: models.dfy ===
/** The page record of internal/models/page.go, which the permissive builder returns. */
module Models {
  import opened Dates

  /**
   One page of the site: front-matter values, the Markdown body and its HTML,
   and where the page is written relative to the output root.
   */
  datatype Page = Page(
    title: string,
    slug: string,
    date: Time,
    tags: seq<string>,
    htmlContent: string,
    content: string,
    outputPath: string,
    layout: string)
}

=== FILE: parser.dfy ===
/**
 The permissive page builder of internal/parser/parser.go, `ParseMarkdown`:
 front matter is optional, a half-formed block is an error, the date must be
 a valid `YYYY-MM-DD`, the layout defaults to "page", the slug defaults to the
 path below the content root without its extension, and the output path is
 `filepath.Join(slug, "index.html")`, which is `<slug>/index.html` for a
 clean slug other than "." and "/" (slug "." gives "index.html").
 */
module Parser {
  import opened Wrappers
  import opened Strings
  import opened Paths
  import opened Dates
  import opened Models
  import opened FrontMatterSplit

  /** The metadata keys the builder reads; a key that is absent decodes to "" or []. */
  datatype FrontMatter = FrontMatter(title: string, date: string, tags: seq<string>, slug: string, layout: string)

  /** What a document without a front-matter block contributes: nothing. */
  const EmptyFrontMatter: FrontMatter := FrontMatter("", "", [], "", "")

  const DefaultLayout: string := "page"

  const IndexFile: string := "index.html"

  /**
   The library calls whose internals are outside the model: YAML decoding
   into the metadata record, Markdown rendering, and the cases of
   `filepath.Rel` other than a target inside a clean base directory.
   */
  datatype Library = Library(
    decodeYaml: string -> Result<FrontMatter, string>,
    toHtml: string -> string,
    relOther: (string, string) -> Result<string, string>)

  /** The errors `ParseMarkdown` returns, each with the context Go wraps around it. */
  datatype ParseError =
    | ReadingMarkdown(cause: string)
    | UnmarshallingFrontMatter(cause: string)
    | InvalidFrontMatterFormat
    | InvalidDateFormat(path: string, reason: DateError)
    | ResolvingRelativePath(cause: string)

  function DateErrorText(e: DateError): string {
    match e
    case CannotParse => "cannot parse"
    case MonthOutOfRange => "month out of range"
    case ExtraText => "extra text"
    case DayOutOfRange => "day out of range"
  }

  /** The text of the error, as `fmt.Errorf` builds it. */
  function Message(e: ParseError): string {
    match e
    case ReadingMarkdown(cause) => "reading markdown: " + cause
    case UnmarshallingFrontMatter(cause) => "unmarshalling front matter: " + cause
    case InvalidFrontMatterFormat => "invalid front matter format"
    case InvalidDateFormat(path, cause) => "invalid date format in " + path + ": " + DateErrorText(cause)
    case ResolvingRelativePath(cause) => "resolving relative path: " + cause
  }

  /** The message of a date error names the offending file. */
  lemma DateMessageNamesPath(path: string, cause: DateError)
    ensures Contains(Message(InvalidDateFormat(path, cause)), path)
  {
    var m := Message(InvalidDateFormat(path, cause));
    var lead := "invalid date format in ";
    assert m == lead + path + (": " + DateErrorText(cause));
    assert m[|lead|..|lead| + |path|] == path;
    assert OccursAt(m, path, |lead|);
  }

  /**
   The front-matter stage: without a leading delimiter the whole content is
   the body and the metadata is empty; with one, the split must give three
   parts, the middle one is decoded and the last one, trimmed, is the body.
   */
  function SplitFrontMatter(content: string, decodeYaml: string -> Result<FrontMatter, string>)
    : (r: Result<(FrontMatter, string), ParseError>)
    ensures !StartsWithDelimiter(content) ==> r == Ok((EmptyFrontMatter, content))
    ensures StartsWithDelimiter(content) ==>
              (r == Err(InvalidFrontMatterFormat) <==> !Contains(content[3..], Delimiter))
    ensures StartsWithDelimiter(content) && r.Ok? ==>
              |SplitParts(content)| == 3
              && decodeYaml(SplitParts(content)[1]) == Ok(r.value.0)
              && r.value.1 == TrimSpace(SplitParts(content)[2])
    ensures r.Err? && r != Err(InvalidFrontMatterFormat) ==>
              StartsWithDelimiter(content) && |SplitParts(content)| == 3
              && decodeYaml(SplitParts(content)[1]).Err?
              && r == Err(UnmarshallingFrontMatter(decodeYaml(SplitParts(content)[1]).error))
  {
    if StartsWithDelimiter(content) then
      PrefixedSplit(content);
      var parts := SplitParts(content);
      if |parts| == 3 then
        match decodeYaml(parts[1])
        case Err(e) => Err(UnmarshallingFrontMatter(e))
        case Ok(fm) => Ok((fm, TrimSpace(parts[2])))
      else
        Err(InvalidFrontMatterFormat)
    else
      Ok((EmptyFrontMatter, content))
  }

  /**
   The date stage: an empty value is Go's zero time; any other value must be
   a valid `YYYY-MM-DD`, else the error names the source path.
   */
  function ResolveDate(path: string, raw: string): (r: Result<Time, ParseError>)
    ensures raw == "" ==> r == Ok(ZeroTime)
    ensures raw != "" ==> (r.Ok? <==> IsFullDate(raw))
    ensures raw != "" && r.Ok? ==> r.value == DateOf(raw)
    ensures r.Err? ==> r.error.InvalidDateFormat? && r.error.path == path
  {
    if raw == "" then Ok(ZeroTime)
    else
      match ParseDate(raw)
      case Err(e) => Err(InvalidDateFormat(path, e))
      case Ok(t) => Ok(t)
  }

  /** The layout stage: never empty; the explicit layout when there is one. */
  function ResolveLayout(layout: string): (r: string)
    ensures r != ""
    ensures layout != "" ==> r == layout
    ensures layout == "" ==> r == DefaultLayout
  {
    if layout == "" then DefaultLayout else layout
  }

  /**
   The slug stage: an explicit slug is used verbatim; otherwise the path
   relative to the content root with its final extension removed (`/` is
   already the separator). For a clean path inside a clean root, the derived
   slug and the removed extension make up that relative path.
   */
  function ResolveSlug(explicit: string, path: string, inputDir: string,
                       relOther: (string, string) -> Result<string, string>): (r: Result<string, ParseError>)
    ensures explicit != "" ==> r == Ok(explicit)
    ensures r.Err? ==> explicit == "" && r.error.ResolvingRelativePath?
    ensures (explicit == "" && Clean(inputDir) == inputDir && Clean(path) == path && inputDir != "."
             && HasPrefix(path, inputDir + "/")) ==>
              r.Ok? && path == inputDir + "/" + r.value + Ext(path[|inputDir| + 1..])
  {
    if explicit != "" then Ok(explicit)
    else
      match Rel(inputDir, path, relOther)
      case Err(e) => Err(ResolvingRelativePath(e))
      case Ok(rel) =>
        var ext := Ext(rel);
        var slug := TrimSuffix(rel, ext);
        assert slug + ext == rel;
        if Clean(inputDir) == inputDir && Clean(path) == path && inputDir != "." && HasPrefix(path, inputDir + "/") then
          assert rel == path[|inputDir| + 1..];
          assert path == inputDir + "/" + (slug + ext);
          ConcatAssociative(inputDir + "/", slug, ext);
          assert Ext(path[|inputDir| + 1..]) == ext;
          Ok(slug)
        else
          Ok(slug)
  }

  /** `filepath.Join(slug, "index.html")`: always a path to an `index.html`. */
  function OutputPathFor(slug: string): (r: string)
    ensures r == IndexFile || HasSuffix(r, "/" + IndexFile)
    ensures slug != "" && slug != "." && slug != "/" && Clean(slug) == slug ==> r == slug + "/" + IndexFile
  {
    JoinEndsWithName(slug, IndexFile);
    if slug != "" && slug != "." && slug != "/" && Clean(slug) == slug then
      JoinClean(slug, IndexFile);
      Join(slug, IndexFile)
    else
      Join(slug, IndexFile)
  }

  /**
   ParseMarkdown(path, inputDir) given what reading `path` produced. The
   stages run in the order of the source: read, front matter, date, layout,
   slug, rendering, output path; the first failing stage decides the error.
   */
  function ParseMarkdown(path: string, inputDir: string, data: Result<string, string>, lib: Library)
    : (r: Result<Page, ParseError>)
    ensures data.Err? ==> r == Err(ReadingMarkdown(data.error))
    ensures r.Ok? ==> r.value.layout != ""
    ensures r.Ok? ==> r.value.outputPath == IndexFile || HasSuffix(r.value.outputPath, "/" + IndexFile)
    ensures r.Ok? ==> r.value.htmlContent == lib.toHtml(r.value.content)
  {
    match data
    case Err(e) => Err(ReadingMarkdown(e))
    case Ok(content) =>
      match SplitFrontMatter(content, lib.decodeYaml)
      case Err(e) => Err(e)
      case Ok((fm, body)) =>
        match ResolveDate(path, fm.date)
        case Err(e) => Err(e)
        case Ok(date) =>
          var layout := ResolveLayout(fm.layout);
          match ResolveSlug(fm.slug, path, inputDir, lib.relOther)
          case Err(e) => Err(e)
          case Ok(slug) =>
            Ok(Page(fm.title, slug, date, fm.tags, lib.toHtml(body), body, OutputPathFor(slug), layout))
  }

  /**
   A document without a leading delimiter never fails at the front-matter
   stage: the body is the whole content, untrimmed; title and tags are empty,
   the layout is "page", the date is the zero time; only slug derivation can
   still fail.
   */
  lemma NoFrontMatterPage(path: string, inputDir: string, content: string, lib: Library)
    requires !StartsWithDelimiter(content)
    ensures var r := ParseMarkdown(path, inputDir, Ok(content), lib);
            (r.Err? ==> r.error.ResolvingRelativePath?)
            && (r.Ok? ==> r.value.content == content && r.value.title == "" && r.value.tags == []
                          && r.value.layout == DefaultLayout && r.value.date == ZeroTime)
  {
  }

  /**
   A document starting with the delimiter is rejected as malformed exactly
   when no second delimiter follows the first three characters.
   */
  lemma HalfFormedBlockRejected(path: string, inputDir: string, content: string, lib: Library)
    requires StartsWithDelimiter(content)
    ensures ParseMarkdown(path, inputDir, Ok(content), lib) == Err(InvalidFrontMatterFormat)
            <==> !Contains(content[3..], Delimiter)
  {
    var r := ParseMarkdown(path, inputDir, Ok(content), lib);
    var split := SplitFrontMatter(content, lib.decodeYaml);
    if split.Err? {
      assert r == Err(split.error);
    } else {
      assert r.Err? ==> r.error.InvalidDateFormat? || r.error.ResolvingRelativePath?;
    }
  }

  /**
   With a front-matter block, the page's values come from decoding the text
   between the first two delimiters, and its body is the rest, trimmed.
   */
  lemma FrontMatterPage(path: string, inputDir: string, content: string, lib: Library)
    requires StartsWithDelimiter(content)
    requires ParseMarkdown(path, inputDir, Ok(content), lib).Ok?
    ensures var page := ParseMarkdown(path, inputDir, Ok(content), lib).value;
            var parts := SplitParts(content);
            && |parts| == 3
            && content == Delimiter + parts[1] + Delimiter + parts[2]
            && lib.decodeYaml(parts[1]).Ok?
            && page.title == lib.decodeYaml(parts[1]).value.title
            && page.tags == lib.decodeYaml(parts[1]).value.tags
            && page.content == TrimSpace(parts[2])
  {
    PrefixedSplit(content);
  }

  /**
   The date of a successfully built page: the zero time for an empty value,
   the named day otherwise; a non-empty invalid value is an error naming the
   path.
   */
  lemma PageDate(path: string, inputDir: string, content: string, lib: Library)
    requires SplitFrontMatter(content, lib.decodeYaml).Ok?
    ensures var fm := SplitFrontMatter(content, lib.decodeYaml).value.0;
            var r := ParseMarkdown(path, inputDir, Ok(content), lib);
            && (fm.date != "" && !IsFullDate(fm.date) ==> r.Err? && r.error.InvalidDateFormat? && r.error.path == path)
            && (r.Ok? && fm.date == "" ==> r.value.date == ZeroTime)
            && (r.Ok? && fm.date != "" ==> IsFullDate(fm.date) && r.value.date == DateOf(fm.date))
  {
  }

  /**
   The layout and slug of a successfully built page: the explicit values
   when given; otherwise "page", and the relative path without its extension.
   The output path is `<slug>/index.html` for a clean slug other than `.` and `/`.
   */
  lemma PageLayoutAndSlug(path: string, inputDir: string, content: string, lib: Library)
    requires ParseMarkdown(path, inputDir, Ok(content), lib).Ok?
    ensures var fm := SplitFrontMatter(content, lib.decodeYaml).value.0;
            var page := ParseMarkdown(path, inputDir, Ok(content), lib).value;
            && (fm.layout != "" ==> page.layout == fm.layout)
            && (fm.layout == "" ==> page.layout == DefaultLayout)
            && (fm.slug != "" ==> page.slug == fm.slug)
            && ((fm.slug == "" && Clean(inputDir) == inputDir && Clean(path) == path && inputDir != "."
                 && HasPrefix(path, inputDir + "/")) ==>
                  path == inputDir + "/" + page.slug + Ext(path[|inputDir| + 1..]))
            && (page.slug != "" && page.slug != "." && page.slug != "/" && Clean(page.slug) == page.slug ==>
                  page.outputPath == page.slug + "/" + IndexFile)
  {
    var fm := SplitFrontMatter(content, lib.decodeYaml).value.0;
    var page := ParseMarkdown(path, inputDir, Ok(content), lib).value;
    var slug := ResolveSlug(fm.slug, path, inputDir, lib.relOther);
    assert slug.Ok? && page.slug == slug.value;
    assert page.layout == ResolveLayout(fm.layout);
    assert page.outputPath == OutputPathFor(page.slug);
  }

  /**
   A Markdown file `<root>/<stem>.md` without an explicit slug gets the slug
   `<stem>` (for example `content/blog/post-1.md` gives `blog/post-1`), and,
   for a plain stem, gets the output path `<stem>/index.html`.
   */
  lemma MarkdownFileSlug(inputDir: string, stem: string, content: string, lib: Library)
    requires Clean(inputDir) == inputDir && inputDir != "."
    requires Clean(inputDir + "/" + stem + ".md") == inputDir + "/" + stem + ".md"
    requires ParseMarkdown(inputDir + "/" + stem + ".md", inputDir, Ok(content), lib).Ok?
    requires SplitFrontMatter(content, lib.decodeYaml).value.0.slug == ""
    ensures ParseMarkdown(inputDir + "/" + stem + ".md", inputDir, Ok(content), lib).value.slug == stem
    ensures stem != "" && IsPlainPath(stem) ==>
              ParseMarkdown(inputDir + "/" + stem + ".md", inputDir, Ok(content), lib).value.outputPath
              == stem + "/" + IndexFile
  {
    var path := inputDir + "/" + stem + ".md";
    var page := ParseMarkdown(path, inputDir, Ok(content), lib).value;
    FileUnderRoot(inputDir, stem, ".md");
    PageLayoutAndSlug(path, inputDir, content, lib);
    ExtOfMarkdownName(stem);
    SameFrame(inputDir + "/", page.slug, stem, ".md");
    if stem != "" && IsPlainPath(stem) {
      CleanPlain(stem);
      assert stem != "." && stem != "/" by {
        assert Segments(".") == ["."];
        assert '/' in "/";
        RootedFirstSegment("/");
      }
    }
  }

  /**
   When a page is built: for a clean `<root>/<stem>.md` under a clean root,
   exactly when the front-matter stage succeeds and the date is empty or a
   valid `YYYY-MM-DD`. In particular a document without a front-matter block
   is always built there.
   */
  lemma PageBuiltUnderRoot(inputDir: string, stem: string, content: string, lib: Library)
    requires Clean(inputDir) == inputDir && inputDir != "."
    requires Clean(inputDir + "/" + stem + ".md") == inputDir + "/" + stem + ".md"
    ensures var r := ParseMarkdown(inputDir + "/" + stem + ".md", inputDir, Ok(content), lib);
            var split := SplitFrontMatter(content, lib.decodeYaml);
            && (r.Ok? <==> split.Ok? && (split.value.0.date == "" || IsFullDate(split.value.0.date)))
            && (!StartsWithDelimiter(content) ==> r.Ok?)
  {
    FileUnderRoot(inputDir, stem, ".md");
  }

  /** Helper: sequence arithmetic for a file path built below a directory. */
  lemma FileUnderRoot(dir: string, stem: string, ext: string)
    ensures HasPrefix(dir + "/" + stem + ext, dir + "/")
    ensures (dir + "/" + stem + ext)[|dir| + 1..] == stem + ext
  {
    var p := dir + "/" + stem + ext;
    assert p == (dir + "/") + (stem + ext);
  }

  /** Helper: equal texts with the same prefix and suffix have equal middles. */
  lemma SameFrame(front: string, x: string, y: string, back: string)
    requires front + x + back == front + y + back
    ensures x == y
  {
    var p := front + x + back;
    assert |x| == |y|;
    assert p[|front|..|front| + |x|] == x;
    assert (front + y + back)[|front|..|front| + |y|] == y;
  }
}

=== FILE: paths.dfy ===
/**
 The part of Go's `path/filepath` package the page builders use, for a
 system whose separator is `/` (so `filepath.ToSlash` is the identity and is
 not written out): `Clean`, a two-element `Join`, `Base`, `Ext`, `Dir`, and
 `Rel` for the case of a target inside a clean base directory.
 */
module Paths {
  import opened Wrappers
  import opened Strings

  /** Position of the first `c` in `s`. */
  function FirstIndex(s: string, c: char): (i: nat)
    requires c in s
    ensures i < |s| && s[i] == c && c !in s[..i]
  {
    if s[0] == c then 0
    else
      var i := FirstIndex(s[1..], c);
      assert s[..i + 1] == [s[0]] + s[1..][..i];
      i + 1
  }

  /** strings.Split(p, "/"): the text between separators, left to right. */
  function Segments(p: string): (segs: seq<string>)
    ensures |segs| >= 1
    ensures JoinWith(segs, "/") == p
    ensures forall i :: 0 <= i < |segs| ==> '/' !in segs[i]
    decreases |p|
  {
    if '/' !in p then [p]
    else
      var i := FirstIndex(p, '/');
      var rest := Segments(p[i + 1..]);
      JoinWithCons(p[..i], rest, "/");
      assert p == p[..i] + "/" + p[i + 1..];
      [p[..i]] + rest
  }

  /** Splitting after joining slash-free segments gives the segments back. */
  lemma {:induction false} SegmentsOfJoin(segs: seq<string>)
    requires |segs| >= 1
    requires forall i :: 0 <= i < |segs| ==> '/' !in segs[i]
    ensures Segments(JoinWith(segs, "/")) == segs
    decreases |segs|
  {
    if |segs| > 1 {
      var p := JoinWith(segs, "/");
      FirstCutOfJoin(segs);
      SegmentsOfJoin(segs[1..]);
      assert segs == [segs[0]] + segs[1..];
    }
  }

  /** Joined segments split first right after the first segment. */
  lemma FirstCutOfJoin(segs: seq<string>)
    requires |segs| > 1 && '/' !in segs[0]
    ensures var p := JoinWith(segs, "/");
            '/' in p && FirstIndex(p, '/') == |segs[0]|
            && p[..|segs[0]|] == segs[0] && p[|segs[0]| + 1..] == JoinWith(segs[1..], "/")
  {
    var p := JoinWith(segs, "/");
    var k := |segs[0]|;
    assert p == segs[0] + "/" + JoinWith(segs[1..], "/");
    assert p[k] == '/';
    assert p[..k] == segs[0];
    FirstIndexAt(p, '/', k);
  }

  /** The first `c` is at `k` when `s[k]` is `c` and no `c` comes before. */
  lemma FirstIndexAt(s: string, c: char, k: nat)
    requires k < |s| && s[k] == c && c !in s[..k]
    ensures c in s && FirstIndex(s, c) == k
  {
    assert s[k] in s;
  }

  /** Helper: joining with one more element at the end. */
  lemma JoinWithSnoc(segs: seq<string>, last: string, sep: string)
    requires |segs| >= 1
    ensures JoinWith(segs + [last], sep) == JoinWith(segs, sep) + sep + last
    decreases |segs|
  {
    if |segs| == 1 {
      assert (segs + [last])[1..] == [last];
    } else {
      assert (segs + [last])[1..] == segs[1..] + [last];
      JoinWithSnoc(segs[1..], last, sep);
    }
  }

  /** Appending "/" and a slash-free name adds exactly one segment. */
  lemma SegmentsAppendName(p: string, name: string)
    requires '/' !in name
    ensures Segments(p + "/" + name) == Segments(p) + [name]
  {
    var segs := Segments(p) + [name];
    JoinWithSnoc(Segments(p), name, "/");
    SegmentsOfJoin(segs);
  }

  /** A path element that `Clean` keeps as it is. */
  predicate IsName(seg: string) {
    seg != "" && seg != "." && seg != ".." && '/' !in seg
  }

  /** A relative path of plain names only, with no empty, `.` or `..` element. */
  predicate IsPlainPath(p: string) {
    forall i :: 0 <= i < |Segments(p)| ==> IsName(Segments(p)[i])
  }

  /** Two names joined by a separator make a plain path. */
  lemma PlainPair(a: string, b: string)
    requires IsName(a) && IsName(b)
    ensures IsPlainPath(a + "/" + b)
  {
    assert [a, b][1..] == [b];
    assert JoinWith([a, b], "/") == a + "/" + b;
    SegmentsOfJoin([a, b]);
  }

  /**
   One element of Go's lexical clean, applied to the elements kept so far:
   empty and `.` elements vanish, `..` removes the previous name (or stays at
   the start of a relative path, or vanishes at the root), names are kept.
   */
  function Push(kept: seq<string>, seg: string, rooted: bool): seq<string> {
    if seg == "" || seg == "." then kept
    else if seg == ".." then
      if |kept| > 0 && kept[|kept| - 1] != ".." then kept[..|kept| - 1]
      else if rooted then kept
      else kept + [".."]
    else kept + [seg]
  }

  /** The elements kept after cleaning the elements `segs`, left to right. */
  function Resolve(segs: seq<string>, rooted: bool): seq<string>
    decreases |segs|
  {
    if |segs| == 0 then []
    else Push(Resolve(segs[..|segs| - 1], rooted), segs[|segs| - 1], rooted)
  }

  /** Elements that are all names are kept unchanged. */
  lemma {:induction false} ResolveNames(segs: seq<string>, rooted: bool)
    requires forall i :: 0 <= i < |segs| ==> IsName(segs[i])
    ensures Resolve(segs, rooted) == segs
    decreases |segs|
  {
    if |segs| > 0 {
      ResolveNames(segs[..|segs| - 1], rooted);
      assert segs == segs[..|segs| - 1] + [segs[|segs| - 1]];
    }
  }

  /** filepath.Clean: the shortest path naming the same file by lexical rules alone. */
  function Clean(p: string): (r: string)
    ensures r != ""
    ensures |p| > 0 && p[0] == '/' ==> r[0] == '/'
  {
    if p == "" then "."
    else
      var rooted := p[0] == '/';
      var out := (if rooted then "/" else "") + JoinWith(Resolve(Segments(p), rooted), "/");
      if out == "" then "." else out
  }

  /** A path starting with a separator has an empty first element. */
  lemma RootedFirstSegment(p: string)
    requires |p| > 0 && p[0] == '/'
    ensures Segments(p)[0] == ""
  {
    assert FirstIndex(p, '/') == 0;
  }

  /** Plain paths are already clean. */
  lemma CleanPlain(p: string)
    requires p != "" && IsPlainPath(p)
    ensures Clean(p) == p
  {
    if p[0] == '/' {
      RootedFirstSegment(p);
      assert false;
    }
    ResolveNames(Segments(p), false);
  }

  /**
   filepath.Join for two elements: empty elements are ignored and the result
   is cleaned.
   */
  function Join(dir: string, name: string): (r: string)
    ensures r == "" <==> dir == "" && name == ""
  {
    if dir != "" then Clean(dir + "/" + name)
    else if name != "" then Clean(name)
    else ""
  }

  /** Helper: a trailing name survives cleaning. */
  lemma ResolveAppendName(segs: seq<string>, name: string, rooted: bool)
    requires IsName(name)
    ensures Resolve(segs + [name], rooted) == Resolve(segs, rooted) + [name]
  {
    assert (segs + [name])[..|segs|] == segs;
  }

  /** The elements that cleaning `dir + "/" + name` keeps end with `name`. */
  lemma CleanAppendName(dir: string, name: string)
    requires dir != "" && IsName(name)
    ensures var rooted := dir[0] == '/';
            Clean(dir + "/" + name)
              == (if rooted then "/" else "") + JoinWith(Resolve(Segments(dir), rooted) + [name], "/")
  {
    var p := dir + "/" + name;
    SegmentsAppendName(dir, name);
    ResolveAppendName(Segments(dir), name, dir[0] == '/');
  }

  /** Joining a name onto any directory ends with that name as a whole element. */
  lemma JoinEndsWithName(dir: string, name: string)
    requires IsName(name)
    ensures Join(dir, name) == name || HasSuffix(Join(dir, name), "/" + name)
  {
    if dir == "" {
      assert Segments(name) == [name];
      assert Resolve([name], false) == [name];
    } else {
      CleanAppendName(dir, name);
      var rooted := dir[0] == '/';
      JoinKeptName(if rooted then "/" else "", Resolve(Segments(dir), rooted), name);
    }
  }

  /** Helper: the joined elements end with the appended name. */
  lemma JoinKeptName(prefix: string, kept: seq<string>, name: string)
    ensures var j := prefix + JoinWith(kept + [name], "/");
            (|kept| == 0 ==> j == prefix + name) && (|kept| > 0 ==> HasSuffix(j, "/" + name))
  {
    if |kept| == 0 {
      assert kept + [name] == [name];
    } else {
      JoinWithSnoc(kept, name, "/");
      ConcatAssociative4(prefix, JoinWith(kept, "/"), "/", name);
      ConcatAssociative(prefix + JoinWith(kept, "/"), "/", name);
      SuffixOfConcat(prefix + JoinWith(kept, "/"), "/" + name);
    }
  }

  /**
   Joining a name onto any clean directory other than `.` and `/` is plain
   concatenation with a separator.
   */
  lemma JoinClean(dir: string, name: string)
    requires dir != "" && dir != "." && dir != "/" && Clean(dir) == dir && IsName(name)
    ensures Join(dir, name) == dir + "/" + name
  {
    CleanAppendName(dir, name);
    var rooted := dir[0] == '/';
    var pre := if rooted then "/" else "";
    var xs := Resolve(Segments(dir), rooted);
    assert pre + JoinWith(xs, "/") == dir;
    assert |xs| > 0;
    JoinWithSnoc(xs, name, "/");
    ConcatAssociative4(pre, JoinWith(xs, "/"), "/", name);
  }

  /** Joining a name onto a plain directory is plain concatenation with a separator. */
  lemma JoinPlain(dir: string, name: string)
    requires dir != "" && IsPlainPath(dir) && IsName(name)
    ensures Join(dir, name) == dir + "/" + name
  {
    var p := dir + "/" + name;
    SegmentsAppendName(dir, name);
    if dir[0] == '/' {
      RootedFirstSegment(dir);
      assert false;
    }
    var segs := Segments(p);
    assert forall i :: 0 <= i < |segs| ==> IsName(segs[i]);
    ResolveNames(segs, false);
  }

  /** Drop trailing separators. */
  function TrimTrailingSlashes(p: string): (r: string)
    ensures |r| <= |p| && r == p[..|r|]
    ensures forall i :: |r| <= i < |p| ==> p[i] == '/'
    ensures r == [] || r[|r| - 1] != '/'
    decreases |p|
  {
    if |p| > 0 && p[|p| - 1] == '/' then TrimTrailingSlashes(p[..|p| - 1]) else p
  }

  /** The text after the last separator. */
  function LastElement(p: string): (r: string)
    ensures |r| <= |p| && r == p[|p| - |r|..]
    ensures '/' !in r
    ensures |r| < |p| ==> p[|p| - |r| - 1] == '/'
    decreases |p|
  {
    if |p| == 0 || p[|p| - 1] == '/' then ""
    else
      var q := p[..|p| - 1];
      var r := LastElement(q);
      LastElementStep(p, q, r);
      r + [p[|p| - 1]]
  }

  /** Helper: one step of `LastElement` on a path ending in a non-separator. */
  lemma LastElementStep(p: string, q: string, r: string)
    requires |p| > 0 && p[|p| - 1] != '/' && q == p[..|p| - 1]
    requires |r| <= |q| && r == q[|q| - |r|..] && '/' !in r
    requires |r| < |q| ==> q[|q| - |r| - 1] == '/'
    ensures p[|p| - |r| - 1..] == r + [p[|p| - 1]]
    ensures '/' !in r + [p[|p| - 1]]
    ensures |r| + 1 < |p| ==> p[|p| - |r| - 2] == '/'
  {
    var c := p[|p| - 1];
    assert p[|p| - |r| - 1..] == r + [c] by {
      assert p[|p| - |r| - 1..] == p[|p| - |r| - 1..|p| - 1] + [c];
      assert p[|p| - |r| - 1..|p| - 1] == q[|q| - |r|..];
    }
  }

  /**
   filepath.Base: the last element after trailing separators are dropped;
   "." for the empty path and "/" for a path of separators only.
   */
  function Base(p: string): (r: string)
    ensures r != ""
    ensures p == "" ==> r == "."
    ensures p != "" && TrimTrailingSlashes(p) == "" ==> r == "/"
    ensures TrimTrailingSlashes(p) != "" ==>
              '/' !in r && HasSuffix(TrimTrailingSlashes(p), r)
              && (|r| == |TrimTrailingSlashes(p)| || HasSuffix(TrimTrailingSlashes(p), "/" + r))
  {
    if p == "" then "."
    else
      var q := TrimTrailingSlashes(p);
      if q == "" then "/"
      else
        var r := LastElement(q);
        assert r != "";
        assert |r| < |q| ==> q[|q| - |r| - 1..] == "/" + r;
        r
  }

  /** The base of `<dir>/<name>` is `name`. */
  lemma BaseOfName(dir: string, name: string)
    requires '/' !in name && name != ""
    requires dir == "" || dir[|dir| - 1] == '/'
    ensures Base(dir + name) == name
  {
    var p := dir + name;
    assert p[|p| - 1] == name[|name| - 1];
    assert TrimTrailingSlashes(p) == p;
    LastElementOfName(dir, name);
  }

  /** Helper: the last element of a directory prefix followed by a name is the name. */
  lemma {:induction false} LastElementOfName(dir: string, name: string)
    requires '/' !in name
    requires dir == "" || dir[|dir| - 1] == '/'
    ensures LastElement(dir + name) == name
    decreases |name|
  {
    var p := dir + name;
    if |name| == 0 {
      assert p == dir;
    } else {
      var front := name[..|name| - 1];
      assert name == front + [name[|name| - 1]];
      assert p[..|p| - 1] == dir + front;
      assert p[|p| - 1] == name[|name| - 1];
      LastElementOfName(dir, front);
    }
  }

  /**
   filepath.Ext: the suffix from the last `.` of the final element, or ""
   when the final element has no `.`.
   */
  function Ext(p: string): (r: string)
    ensures HasSuffix(p, r)
    ensures r == "" || (r[0] == '.' && '/' !in r && '.' !in r[1..])
    ensures r == "" ==> forall i :: 0 <= i < |p| && '/' !in p[i..] ==> p[i] != '.'
    decreases |p|
  {
    if |p| == 0 || p[|p| - 1] == '/' then
      SlashInEveryTail(p);
      ""
    else if p[|p| - 1] == '.' then
      [p[|p| - 1]]
    else
      var front := p[..|p| - 1];
      var e := Ext(front);
      if e == "" then
        NoDotAfterSlash(front, p[|p| - 1]);
        assert p == front + [p[|p| - 1]];
        ""
      else
        assert e[1..] + [p[|p| - 1]] == (e + [p[|p| - 1]])[1..];
        assert p[|p| - |e| - 1..] == e + [p[|p| - 1]];
        e + [p[|p| - 1]]
  }

  /** Helper: every tail of a path ending in a separator holds one. */
  lemma SlashInEveryTail(p: string)
    requires |p| == 0 || p[|p| - 1] == '/'
    ensures forall i :: 0 <= i < |p| ==> '/' in p[i..]
  {
    forall i | 0 <= i < |p|
      ensures '/' in p[i..]
    {
      assert p[i..][|p| - 1 - i] == '/';
    }
  }

  /** A character other than `/` and `.` appended to a final element without a dot keeps it dot-free. */
  lemma NoDotAfterSlash(front: string, c: char)
    requires c != '/' && c != '.'
    requires forall i :: 0 <= i < |front| && '/' !in front[i..] ==> front[i] != '.'
    ensures forall i :: 0 <= i < |front + [c]| && '/' !in (front + [c])[i..] ==> (front + [c])[i] != '.'
  {
    var p := front + [c];
    forall i | 0 <= i < |p| && '/' !in p[i..]
      ensures p[i] != '.'
    {
      if i < |front| {
        assert p[i..] == front[i..] + [c];
        assert forall x :: x in front[i..] ==> x in p[i..];
      }
    }
  }

  /** The extension of a `.md` file name is `.md`. */
  lemma ExtOfMarkdownName(stem: string)
    ensures Ext(stem + ".md") == ".md"
  {
    var p := stem + ".md";
    assert p[..|p| - 1] == stem + ".m";
    assert (stem + ".m")[..|p| - 2] == stem + ".";
    assert Ext(stem + ".") == ".";
  }

  /** Everything up to and including the last separator ("" without one). */
  function DirPrefix(p: string): (r: string)
    ensures |r| <= |p| && r == p[..|r|]
    ensures r == "" || r[|r| - 1] == '/'
    ensures '/' !in p[|r|..]
    decreases |p|
  {
    if |p| == 0 || p[|p| - 1] == '/' then p
    else
      var r := DirPrefix(p[..|p| - 1]);
      assert p[|r|..] == p[..|p| - 1][|r|..] + [p[|p| - 1]];
      r
  }

  /** filepath.Dir: all but the last element, cleaned. */
  function Dir(p: string): (r: string)
    ensures r != ""
    ensures '/' !in p ==> r == "."
  {
    Clean(DirPrefix(p))
  }

  /** The directory of a plain path with a directory part is that directory part. */
  lemma DirPlain(dir: string, name: string)
    requires dir != "" && IsPlainPath(dir) && IsName(name)
    ensures Dir(dir + "/" + name) == dir
  {
    var p := dir + "/" + name;
    assert p[|dir|] == '/';
    assert p[|dir| + 1..] == name;
    DirPrefixOfName(p, |dir| + 1);
    assert p[..|dir| + 1] == dir + "/";
    CleanTrailingSlash(dir);
  }

  /** A trailing separator after a plain path is dropped by Clean. */
  lemma CleanTrailingSlash(dir: string)
    requires dir != "" && IsPlainPath(dir)
    ensures Clean(dir + "/") == dir
  {
    if dir[0] == '/' {
      RootedFirstSegment(dir);
      assert false;
    }
    var segs := Segments(dir);
    ResolveNames(segs, false);
    ResolveAppendEmpty(segs, false);
    SegmentsAppendName(dir, "");
    assert dir + "/" + "" == dir + "/";
  }

  /** Helper: a trailing empty element vanishes when cleaning. */
  lemma ResolveAppendEmpty(segs: seq<string>, rooted: bool)
    ensures Resolve(segs + [""], rooted) == Resolve(segs, rooted)
  {
    assert (segs + [""])[..|segs|] == segs;
  }

  /** Helper: the directory prefix ends at the last separator. */
  lemma {:induction false} DirPrefixOfName(p: string, k: nat)
    requires 0 < k <= |p| && p[k - 1] == '/' && '/' !in p[k..]
    ensures DirPrefix(p) == p[..k]
    decreases |p|
  {
    if |p| > k {
      assert p[|p| - 1] in p[k..];
      assert p[..|p| - 1][k..] == p[k..|p| - 1];
      assert forall c :: c in p[k..|p| - 1] ==> c in p[k..];
      DirPrefixOfName(p[..|p| - 1], k);
    }
  }

  /**
   filepath.Rel for a target inside a clean base directory: the target with
   the base and its separator removed. Every other case of Go's algorithm is
   delegated to `other`.
   */
  function Rel(base: string, target: string, other: (string, string) -> Result<string, string>): (r: Result<string, string>)
    ensures (Clean(base) == base && Clean(target) == target && base != "." && HasPrefix(target, base + "/"))
              ==> r == Ok(target[|base| + 1..]) && target == base + "/" + r.value
  {
    if Clean(base) == base && Clean(target) == target && base != "." && HasPrefix(target, base + "/") then
      assert target == target[..|base| + 1] + target[|base| + 1..];
      Ok(target[|base| + 1..])
    else other(base, target)
  }
}

=== FILE: stable_sort.dfy ===
/**
 `sort.SliceStable` with a "comes first" relation that puts larger keys
 first, keys compared as Go compares strings. The result is described by
 a reference predicate, `IsStableSortOf`, which has exactly one solution.
 */
module StableSort {
  import opened Strings

  /** Every element's key is at least the key of every element after it. */
  predicate SortedDescending<T>(s: seq<T>, key: T -> string) {
    forall i, j :: 0 <= i < j < |s| ==> !LexLess(key(s[i]), key(s[j]))
  }

  /** The elements whose key is `k`, in their order in `s`. */
  function WithKey<T>(s: seq<T>, key: T -> string, k: string): seq<T>
    decreases |s|
  {
    if |s| == 0 then []
    else (if key(s[0]) == k then [s[0]] else []) + WithKey(s[1..], key, k)
  }

  /**
   `t` is a stable descending sort of `s`: ordered by key, and each group of
   equal keys in the order it had in `s`.
   */
  ghost predicate IsStableSortOf<T>(t: seq<T>, s: seq<T>, key: T -> string) {
    SortedDescending(t, key) && forall k :: WithKey(t, key, k) == WithKey(s, key, k)
  }

  /** Place `x` before the first element whose key is not larger than its own. */
  function Insert<T>(x: T, s: seq<T>, key: T -> string): (r: seq<T>)
    ensures multiset(r) == multiset(s) + multiset{x}
    decreases |s|
  {
    if |s| == 0 then [x]
    else if LexLess(key(x), key(s[0])) then
      assert s == [s[0]] + s[1..];
      [s[0]] + Insert(x, s[1..], key)
    else
      [x] + s
  }

  /** Inserting into a sorted sequence keeps it sorted. */
  lemma {:induction false} InsertSorted<T>(x: T, s: seq<T>, key: T -> string)
    requires SortedDescending(s, key)
    ensures SortedDescending(Insert(x, s, key), key)
    decreases |s|
  {
    var r := Insert(x, s, key);
    if |s| == 0 {
    } else if LexLess(key(x), key(s[0])) {
      var rest := Insert(x, s[1..], key);
      InsertSorted(x, s[1..], key);
      assert r[1..] == rest;
      forall j | 1 <= j < |r|
        ensures !LexLess(key(r[0]), key(r[j]))
      {
        assert r[j] in multiset(rest);
        if r[j] == x {
          LexLessAsymmetric(key(x), key(s[0]));
        } else {
          assert r[j] in multiset(s[1..]);
          var i :| 0 <= i < |s[1..]| && s[1..][i] == r[j];
          assert s[i + 1] == r[j];
        }
      }
    } else {
      assert r[1..] == s;
      forall j | 1 <= j < |r|
        ensures !LexLess(key(x), key(r[j]))
      {
        if j > 1 {
          LexNotLessTransitive(key(x), key(s[0]), key(s[j - 1]));
        }
      }
    }
  }

  /** Inserting `x` puts it at the head of its key group and leaves every other group alone. */
  lemma {:induction false} InsertGroup<T>(x: T, s: seq<T>, key: T -> string, k: string)
    ensures WithKey(Insert(x, s, key), key, k) == (if key(x) == k then [x] else []) + WithKey(s, key, k)
    decreases |s|
  {
    var r := Insert(x, s, key);
    if |s| == 0 {
    } else if LexLess(key(x), key(s[0])) {
      InsertGroup(x, s[1..], key, k);
      assert r[1..] == Insert(x, s[1..], key);
      if key(x) == k {
        LexLessIrreflexive(k);
      }
    } else {
      assert r[1..] == s;
    }
  }

  /** Helper: insertion leaves the groups of other keys unchanged. */
  lemma InsertGroups<T>(x: T, s: seq<T>, key: T -> string)
    ensures forall k :: WithKey(Insert(x, s, key), key, k) == (if key(x) == k then [x] else []) + WithKey(s, key, k)
  {
    forall k {
      InsertGroup(x, s, key, k);
    }
  }

  /** The stable insertion sort: each element goes in front of its equals from later in `s`. */
  function SortDescending<T>(s: seq<T>, key: T -> string): (r: seq<T>)
    ensures multiset(r) == multiset(s) && |r| == |s|
    ensures IsStableSortOf(r, s, key)
    decreases |s|
  {
    if |s| == 0 then []
    else
      assert s == [s[0]] + s[1..];
      var sorted := SortDescending(s[1..], key);
      InsertSorted(s[0], sorted, key);
      InsertGroups(s[0], sorted, key);
      Insert(s[0], sorted, key)
  }

  /** The first element of a sorted sequence has the largest key. */
  lemma HeadHasLargestKey<T>(t: seq<T>, key: T -> string, x: T)
    requires SortedDescending(t, key) && x in t
    ensures !LexLess(key(t[0]), key(x))
  {
    var j :| 0 <= j < |t| && t[j] == x;
    if j == 0 {
      LexLessIrreflexive(key(x));
    }
  }

  /** Helper: the key of the first element has a non-empty group. */
  lemma HeadGroupNonEmpty<T>(t: seq<T>, key: T -> string)
    requires |t| > 0
    ensures WithKey(t, key, key(t[0])) != []
  {
  }

  /** Helper: an element with the key lies in that key's group. */
  lemma {:induction false} WithKeyMember<T>(s: seq<T>, key: T -> string, k: string, x: T)
    requires x in WithKey(s, key, k)
    ensures x in s && key(x) == k
    decreases |s|
  {
    if |s| > 0 && !(key(s[0]) == k && x == s[0]) {
      WithKeyMember(s[1..], key, k, x);
    }
  }

  /**
   A stable sort is unique: two sequences sorted by key with the same groups
   of equal keys are equal. So the insertion sort above computes what any
   correct stable sort, `sort.SliceStable` included, computes.
   */
  lemma {:induction false} StableSortUnique<T>(t1: seq<T>, t2: seq<T>, key: T -> string)
    requires SortedDescending(t1, key) && SortedDescending(t2, key)
    requires forall k :: WithKey(t1, key, k) == WithKey(t2, key, k)
    ensures t1 == t2
    decreases |t1| + |t2|
  {
    if |t1| == 0 || |t2| == 0 {
      if |t1| > 0 {
        HeadGroupNonEmpty(t1, key);
      } else if |t2| > 0 {
        HeadGroupNonEmpty(t2, key);
      }
    } else {
      SameHead(t1, t2, key);
      SameTailGroups(t1, t2, key);
      StableSortUnique(t1[1..], t2[1..], key);
      assert t1 == [t1[0]] + t1[1..];
      assert t2 == [t2[0]] + t2[1..];
    }
  }

  /** Two sorted sequences with the same groups start with the same element. */
  lemma SameHead<T>(t1: seq<T>, t2: seq<T>, key: T -> string)
    requires |t1| > 0 && |t2| > 0
    requires SortedDescending(t1, key) && SortedDescending(t2, key)
    requires forall k :: WithKey(t1, key, k) == WithKey(t2, key, k)
    ensures key(t1[0]) == key(t2[0]) && t1[0] == t2[0]
  {
    var k1, k2 := key(t1[0]), key(t2[0]);
    assert t1[0] in WithKey(t1, key, k1);
    WithKeyMember(t2, key, k1, t1[0]);
    HeadHasLargestKey(t2, key, t1[0]);
    assert t2[0] in WithKey(t2, key, k2);
    WithKeyMember(t1, key, k2, t2[0]);
    HeadHasLargestKey(t1, key, t2[0]);
    if k1 != k2 {
      LexLessTotal(k1, k2);
    }
    assert WithKey(t1, key, k1)[0] == t1[0];
    assert WithKey(t2, key, k1)[0] == t2[0];
  }

  /** Removing equal heads leaves equal groups. */
  lemma SameTailGroups<T>(t1: seq<T>, t2: seq<T>, key: T -> string)
    requires |t1| > 0 && |t2| > 0 && key(t1[0]) == key(t2[0])
    requires forall k :: WithKey(t1, key, k) == WithKey(t2, key, k)
    ensures forall k :: WithKey(t1[1..], key, k) == WithKey(t2[1..], key, k)
  {
    forall k
      ensures WithKey(t1[1..], key, k) == WithKey(t2[1..], key, k)
    {
      if k == key(t1[0]) {
        assert WithKey(t1[1..], key, k) == WithKey(t1, key, k)[1..];
        assert WithKey(t2[1..], key, k) == WithKey(t2, key, k)[1..];
      } else {
        assert WithKey(t1, key, k) == WithKey(t1[1..], key, k);
        assert WithKey(t2, key, k) == WithKey(t2[1..], key, k);
      }
    }
  }

  /** The insertion sort returns the one stable sort of its input. */
  lemma SortIsTheStableSort<T>(s: seq<T>, t: seq<T>, key: T -> string)
    requires IsStableSortOf(t, s, key)
    ensures SortDescending(s, key) == t
  {
    var r := SortDescending(s, key);
    StableSortUnique(r, t, key);
  }
}

=== FILE: strings.dfy ===
/**
 The part of Go's `strings` package the page builders rely on: prefix and
 suffix tests, first-occurrence search, `SplitN`, `Replace` with a count of
 one, `TrimSuffix`, `TrimSpace`, and the ordering Go uses for `<` on strings.
 Strings are sequences of Unicode scalar values; Go compares UTF-8 bytes,
 which orders valid text the same way as comparing code points.
 */
module Strings {
  import opened Wrappers

  predicate HasPrefix(s: string, prefix: string) {
    |prefix| <= |s| && s[..|prefix|] == prefix
  }

  predicate HasSuffix(s: string, suffix: string) {
    |suffix| <= |s| && s[|s| - |suffix|..] == suffix
  }

  /** `sep` occurs in `s` starting at index `i`. */
  predicate OccursAt(s: string, sep: string, i: int) {
    0 <= i && i + |sep| <= |s| && s[i..i + |sep|] == sep
  }

  predicate Contains(s: string, sep: string) {
    exists i :: 0 <= i <= |s| && OccursAt(s, sep, i)
  }

  /** Helper: occurrences in a string and in its tail, one position apart. */
  lemma OccursAtShift(s: string, sep: string)
    requires |s| > 0
    ensures forall i :: 1 <= i ==> (OccursAt(s, sep, i) <==> OccursAt(s[1..], sep, i - 1))
  {
    forall i | 1 <= i
      ensures OccursAt(s, sep, i) <==> OccursAt(s[1..], sep, i - 1)
    {
      if i + |sep| <= |s| {
        assert s[1..][i - 1..i - 1 + |sep|] == s[i..i + |sep|];
      }
    }
  }

  /** strings.Index: the first position at which `sep` occurs, if any. */
  function Index(s: string, sep: string): (r: Option<nat>)
    ensures r.Some? ==> OccursAt(s, sep, r.value)
    ensures r.Some? ==> forall j :: 0 <= j < r.value ==> !OccursAt(s, sep, j)
    ensures r.None? <==> !Contains(s, sep)
    decreases |s|
  {
    if |s| < |sep| then
      None
    else if s[..|sep|] == sep then
      assert OccursAt(s, sep, 0);
      Some(0)
    else
      OccursAtShift(s, sep);
      match Index(s[1..], sep)
      case None => None
      case Some(k) => Some(k + 1)
  }

  /** No occurrence of `sep` lies inside the text before its first occurrence. */
  lemma NoneBeforeFirst(s: string, sep: string, m: nat)
    requires |sep| > 0 && m <= |s|
    requires forall j :: 0 <= j < m ==> !OccursAt(s, sep, j)
    ensures !Contains(s[..m], sep)
  {
    forall j | OccursAt(s[..m], sep, j)
      ensures false
    {
      assert s[..m][j..j + |sep|] == s[j..j + |sep|];
      assert OccursAt(s, sep, j);
    }
  }

  /** strings.Join: the parts with `sep` between neighbours. */
  function JoinWith(parts: seq<string>, sep: string): string {
    if |parts| == 0 then ""
    else if |parts| == 1 then parts[0]
    else parts[0] + sep + JoinWith(parts[1..], sep)
  }

  /** An occurrence of `sep` cuts `s` into the text before it, `sep`, and the text after. */
  lemma CutAt(s: string, sep: string, m: nat)
    requires OccursAt(s, sep, m)
    ensures s == s[..m] + sep + s[m + |sep|..]
  {
    assert s[m..m + |sep|] == sep;
    assert s[..m] + s[m..m + |sep|] + s[m + |sep|..] == s;
  }

  /** Helper: joining with one more element at the front. */
  lemma JoinWithCons(first: string, rest: seq<string>, sep: string)
    requires |rest| > 0
    ensures JoinWith([first] + rest, sep) == first + sep + JoinWith(rest, sep)
  {
    assert ([first] + rest)[1..] == rest;
  }

  /**
   strings.SplitN for a non-empty separator: cut at the first `n - 1`
   occurrences of `sep`, scanning left to right; the last part keeps the rest.
   */
  function SplitN(s: string, sep: string, n: nat): (parts: seq<string>)
    requires |sep| > 0
    ensures n == 0 ==> parts == []
    ensures n > 0 ==> 1 <= |parts| <= n && JoinWith(parts, sep) == s
    ensures forall i :: 0 <= i < |parts| - 1 ==> !Contains(parts[i], sep)
    ensures 0 < |parts| < n ==> !Contains(parts[|parts| - 1], sep)
    ensures forall i :: 0 <= i < |parts| - 1 ==> Index(JoinWith(parts[i..], sep), sep) == Some(|parts[i]|)
    decreases n
  {
    if n == 0 then []
    else if n == 1 then [s]
    else
      match Index(s, sep)
      case None => [s]
      case Some(m) =>
        var rest := SplitN(s[m + |sep|..], sep, n - 1);
        SplitStep(s, sep, m, n, rest);
        [s[..m]] + rest
  }

  /** One cut of SplitN: the text before the first `sep`, then the split of what follows it. */
  lemma SplitStep(s: string, sep: string, m: nat, n: nat, rest: seq<string>)
    requires |sep| > 0 && n >= 2 && Index(s, sep) == Some(m)
    requires 1 <= |rest| <= n - 1 && JoinWith(rest, sep) == s[m + |sep|..]
    requires forall i :: 0 <= i < |rest| - 1 ==> !Contains(rest[i], sep)
    requires |rest| < n - 1 ==> !Contains(rest[|rest| - 1], sep)
    requires forall i :: 0 <= i < |rest| - 1 ==> Index(JoinWith(rest[i..], sep), sep) == Some(|rest[i]|)
    ensures 1 <= |[s[..m]] + rest| <= n && JoinWith([s[..m]] + rest, sep) == s
    ensures forall i :: 0 <= i < |[s[..m]] + rest| - 1 ==> !Contains(([s[..m]] + rest)[i], sep)
    ensures |[s[..m]] + rest| < n ==> !Contains(([s[..m]] + rest)[|rest|], sep)
    ensures forall i :: 0 <= i < |[s[..m]] + rest| - 1 ==>
              Index(JoinWith(([s[..m]] + rest)[i..], sep), sep) == Some(|([s[..m]] + rest)[i]|)
  {
    var parts := [s[..m]] + rest;
    NoneBeforeFirst(s, sep, m);
    JoinWithCons(s[..m], rest, sep);
    CutAt(s, sep, m);
    forall i | 0 <= i < |parts| - 1
      ensures !Contains(parts[i], sep)
    {
      if i > 0 {
        assert parts[i] == rest[i - 1];
      }
    }
    forall i | 0 <= i < |parts| - 1
      ensures Index(JoinWith(parts[i..], sep), sep) == Some(|parts[i]|)
    {
      if i == 0 {
        assert parts[0..] == parts;
      } else {
        assert parts[i..] == rest[i - 1..];
        assert parts[i] == rest[i - 1];
      }
    }
  }

  /** Splitting text that opens with `sep`: an empty first part, then the split of the rest. */
  lemma SplitNLeading(s: string, sep: string, n: nat)
    requires |sep| > 0 && HasPrefix(s, sep) && n >= 2
    ensures SplitN(s, sep, n) == [""] + SplitN(s[|sep|..], sep, n - 1)
  {
    assert s[..|sep|] == sep;
    assert Index(s, sep) == Some(0);
  }

  /** Splitting into at most two parts cuts at the first occurrence only. */
  lemma SplitNTwo(s: string, sep: string)
    requires |sep| > 0
    ensures Index(s, sep).None? ==> SplitN(s, sep, 2) == [s]
    ensures Index(s, sep).Some? ==>
              Index(s, sep).value + |sep| <= |s|
              && SplitN(s, sep, 2) == [s[..Index(s, sep).value], s[Index(s, sep).value + |sep|..]]
  {
  }

  /** Helper: sequence arithmetic: `b` ends `a + b`. */
  lemma SuffixOfConcat(a: string, b: string)
    ensures HasSuffix(a + b, b)
  {
    assert (a + b)[|a|..] == b;
  }

  /** Helper: sequence arithmetic: concatenation of three is associative. */
  lemma ConcatAssociative(a: string, b: string, c: string)
    ensures a + (b + c) == a + b + c
  {
  }

  /** Helper: sequence arithmetic: concatenation of four is associative. */
  lemma ConcatAssociative4(a: string, b: string, c: string, d: string)
    ensures a + (b + c + d) == a + b + c + d
  {
  }

  /** strings.TrimSuffix: drop `suffix` once if `s` ends with it. */
  function TrimSuffix(s: string, suffix: string): (r: string)
    ensures HasSuffix(s, suffix) ==> r + suffix == s
    ensures !HasSuffix(s, suffix) ==> r == s
  {
    if HasSuffix(s, suffix) then s[..|s| - |suffix|] else s
  }

  /**
   strings.Replace(s, target, replacement, 1): the first occurrence of `target` (the empty
   string occurs at the start) is replaced; without one, `s` comes back.
   */
  function ReplaceFirst(s: string, target: string, replacement: string): (r: string)
    ensures !Contains(s, target) ==> r == s
  {
    match Index(s, target)
    case None => s
    case Some(i) => s[..i] + replacement + s[i + |target|..]
  }

  /**
   The replacement is determined by the decomposition of `s` around the first
   occurrence of `target`: whatever precedes it is kept, then `replacement`, then the rest.
   */
  lemma ReplaceFirstAt(s: string, target: string, replacement: string, pre: string, post: string)
    requires s == pre + target + post
    requires forall j :: 0 <= j < |pre| ==> !OccursAt(s, target, j)
    ensures ReplaceFirst(s, target, replacement) == pre + replacement + post
  {
    assert OccursAt(s, target, |pre|) by {
      assert s[|pre|..|pre| + |target|] == target;
    }
    var i := Index(s, target).value;
    assert i == |pre|;
    assert s[..i] == pre && s[i + |target|..] == post;
  }

  /** unicode.IsSpace: the characters strings.TrimSpace removes. */
  predicate IsSpace(c: char) {
    c == '\t' || c == '\n' || c == '\U{000B}' || c == '\U{000C}' || c == '\r' || c == ' '
    || c == '\U{0085}' || c == '\U{00A0}' || c == '\U{1680}'
    || ('\U{2000}' <= c <= '\U{200A}')
    || c == '\U{2028}' || c == '\U{2029}' || c == '\U{202F}' || c == '\U{205F}' || c == '\U{3000}'
  }

  predicate AllSpace(s: string) {
    forall i :: 0 <= i < |s| ==> IsSpace(s[i])
  }

  /** Remove leading white space. */
  function TrimLeft(s: string): (r: string)
    ensures |r| <= |s| && r == s[|s| - |r|..]
    ensures AllSpace(s[..|s| - |r|])
    ensures r == [] || !IsSpace(r[0])
    decreases |s|
  {
    if |s| > 0 && IsSpace(s[0]) then
      var r := TrimLeft(s[1..]);
      assert s[..|s| - |r|] == [s[0]] + s[1..][..|s| - 1 - |r|];
      r
    else s
  }

  /** Remove trailing white space. */
  function TrimRight(s: string): (r: string)
    ensures |r| <= |s| && r == s[..|r|]
    ensures AllSpace(s[|r|..])
    ensures r == [] || !IsSpace(r[|r| - 1])
    decreases |s|
  {
    if |s| > 0 && IsSpace(s[|s| - 1]) then
      var r := TrimRight(s[..|s| - 1]);
      assert s[|r|..] == s[..|s| - 1][|r|..] + [s[|s| - 1]];
      r
    else s
  }

  /** strings.TrimSpace: the result neither starts nor ends with white space. */
  function TrimSpace(s: string): (r: string)
    ensures |r| <= |s|
    ensures r == [] || (!IsSpace(r[0]) && !IsSpace(r[|r| - 1]))
  {
    TrimRight(TrimLeft(s))
  }

  /**
   What TrimSpace removes is white space only: `s` is its result framed by
   `k` white-space characters before and only white space after.
   */
  lemma TrimSpaceFrame(s: string) returns (k: nat)
    ensures k + |TrimSpace(s)| <= |s|
    ensures s[k..k + |TrimSpace(s)|] == TrimSpace(s)
    ensures AllSpace(s[..k]) && AllSpace(s[k + |TrimSpace(s)|..])
  {
    var left := TrimLeft(s);
    k := |s| - |left|;
    FrameOf(s, k, left, TrimRight(left));
  }

  /** The framing step of TrimSpaceFrame, stated on the two trims' results. */
  lemma FrameOf(s: string, k: nat, left: string, r: string)
    requires k <= |s| && s[k..] == left && AllSpace(s[..k])
    requires |r| <= |left| && r == left[..|r|] && AllSpace(left[|r|..])
    ensures k + |r| <= |s| && s[k..k + |r|] == r && AllSpace(s[..k]) && AllSpace(s[k + |r|..])
  {
    assert s[k..k + |r|] == s[k..][..|r|];
    assert s[k + |r|..] == left[|r|..];
  }

  /** Trimming a string that neither starts nor ends with white space changes nothing. */
  lemma TrimSpaceIdempotent(s: string)
    ensures TrimSpace(TrimSpace(s)) == TrimSpace(s)
  {
    var t := TrimSpace(s);
    assert TrimLeft(t) == t;
    assert TrimRight(t) == t;
  }

  /** Go's `a < b` on strings: lexicographic by character. */
  predicate LexLess(a: string, b: string)
    decreases |a|
  {
    if |a| == 0 then |b| > 0
    else if |b| == 0 then false
    else if a[0] != b[0] then a[0] < b[0]
    else LexLess(a[1..], b[1..])
  }

  /** No string is below itself. */
  lemma {:induction false} LexLessIrreflexive(a: string)
    ensures !LexLess(a, a)
    decreases |a|
  {
    if |a| > 0 {
      LexLessIrreflexive(a[1..]);
    }
  }

  /** Go's string order is transitive. */
  lemma {:induction false} LexLessTransitive(a: string, b: string, c: string)
    requires LexLess(a, b) && LexLess(b, c)
    ensures LexLess(a, c)
    decreases |a|
  {
    if |a| > 0 && a[0] == b[0] && b[0] == c[0] {
      LexLessTransitive(a[1..], b[1..], c[1..]);
    }
  }

  /** Any two distinct strings are ordered one way or the other. */
  lemma {:induction false} LexLessTotal(a: string, b: string)
    requires a != b
    ensures LexLess(a, b) || LexLess(b, a)
    decreases |a|
  {
    if |a| > 0 && |b| > 0 && a[0] == b[0] {
      assert a == [a[0]] + a[1..];
      assert b == [b[0]] + b[1..];
      LexLessTotal(a[1..], b[1..]);
    }
  }

  /** Of two strings at most one is below the other. */
  lemma LexLessAsymmetric(a: string, b: string)
    requires LexLess(a, b)
    ensures !LexLess(b, a)
  {
    if LexLess(b, a) {
      LexLessTransitive(a, b, a);
      LexLessIrreflexive(a);
    }
  }

  /** "Not smaller than" is transitive: it is the order Go's strings have, read backwards. */
  lemma LexNotLessTransitive(a: string, b: string, c: string)
    requires !LexLess(a, b) && !LexLess(b, c)
    ensures !LexLess(a, c)
  {
    if a != b {
      LexLessTotal(a, b);
    }
    if b != c {
      LexLessTotal(b, c);
    }
    if LexLess(a, c) {
      if a != b && b != c {
        LexLessTransitive(c, b, a);
        LexLessAsymmetric(c, a);
      } else if a != b {
        LexLessAsymmetric(b, a);
      } else if b != c {
        LexLessAsymmetric(c, b);
      } else {
        LexLessIrreflexive(a);
      }
    }
  }

  /** Comparing concatenations whose first pieces have equal length compares piecewise. */
  lemma {:induction false} LexLessConcat(a1: string, a2: string, b1: string, b2: string)
    requires |a1| == |b1|
    ensures LexLess(a1 + a2, b1 + b2) <==> LexLess(a1, b1) || (a1 == b1 && LexLess(a2, b2))
    decreases |a1|
  {
    if |a1| > 0 {
      assert (a1 + a2)[0] == a1[0] && (b1 + b2)[0] == b1[0];
      assert (a1 + a2)[1..] == a1[1..] + a2 && (b1 + b2)[1..] == b1[1..] + b2;
      LexLessConcat(a1[1..], a2, b1[1..], b2);
      if a1[0] == b1[0] && a1[1..] == b1[1..] {
        assert a1 == [a1[0]] + a1[1..] && b1 == [b1[0]] + b1[1..];
      }
      if a1 == b1 {
        assert a1[1..] == b1[1..];
      }
    } else {
      assert a1 + a2 == a2 && b1 + b2 == b2;
    }
  }
}

=== FILE: wrappers.dfy ===
/** Failure-carrying return values, standing in for Go's `(value, error)` pairs. */
module Wrappers {

  /** A value that may be absent. */
  datatype Option<+T> = None | Some(value: T)

  /** Either a computed value or the error that stopped the computation. */
  datatype Result<+T, +E> = Ok(value: T) | Err(error: E)
}
